=== FILE: README.md ===
# Parallel FTP mirror: bookkeeping core in Dafny

This project models the deterministic core of `ftp_downloader.py`, a desktop
tool that mirrors a remote FTP tree into a local directory. Scanner threads
walk the remote tree through a shared directory queue. Download workers take
transfer tasks from a shared download queue. Everything they share sits in
one statistics record: the sets of downloaded and in-flight paths, the
counters, and the error log.

Each locked section of the program is modelled as one pure transition over
immutable records. A thread interleaving is then simply a sequence of
transitions. Everything that touches the outside world is a parameter:

- the FTP server: whether a spelling's size can be read, the outcome of each
  open-and-stream attempt, and a directory listing or its failure;
- the local disk: whether a destination exists and is non-empty;
- the interface's settings: automatic retry on or off, whether a session is
  running, the local root.

Modules, one per file:

- `Text`: Python string operations the code relies on: `in`, ASCII
  `upper`/`lower`, `isspace`, `split()`, `' '.join`, `lstrip`/`rstrip`,
  `replace`.
- `Optional`: the option type.
- `Messages`: the disguised-success test for transfer errors, and the
  rewording of a download's last error into one of three categories.
- `Numbers`: Python `int()` on strings, `str()` on integers, and the size
  parser.
- `Listing`: the fallback `LIST` line parser.
- `Paths`: the absolute and relative spellings of a remote path, the path of
  a directory entry, and the local destination (`os.path.join` on POSIX).
- `Transfer`: one file download, with its spellings tried in order.
- `Registry`: the shared statistics and the worker's two critical sections,
  claim and finish.
- `Crawler`: directory scanning, file admission, the download queue, worker
  steps on the queue, and session start.
- `Lifecycle`: how scanners end discovery and send the workers' stop pills,
  both as written and corrected.
- `Retry`: the failure list, automatic retry and retry-on-request.
- `Progress`: the "Pending" figure, the end-of-session test, and the
  debounced completion test.

The central invariant is `Crawler.Accounted`:

- the in-flight and downloaded sets are disjoint;
- `completed == success + failed`;
- `completed` + queued tasks + in-flight transfers never exceeds `total`.

The program admits a file in two critical sections. It first puts the task
on the download queue (1653-1658), and only later lists it and raises
`total` (1677-1682). `Crawler.Enqueue` and `Crawler.CountAdmitted` model the
two sections. `Crawler.AccountedWithin` relaxes the bound by the number of
admissions that are between the two. Putting a task opens such a window
(`EnqueueOpensWindow`) and counting closes it (`CountClosesWindow`). Worker
steps keep the bound, whatever the number of open windows
(`WorkerTakeKeepsAccounted`, `WorkerFinishKeepsAccounted`). A scanner pass
with every admission taken as one step keeps `Accounted`
(`ScanDirKeepsAccounted`).

When no window is open and the invariant holds, the end-of-session test
passes only with nothing queued or in flight
(`Progress.CompleteLeavesNothingOutstanding`). The program does not always
meet these conditions, and lemmas exhibit each case:

- A worker takes a task between the two admission sections. The session is
  then declared complete with that file in flight
  (`Progress.CompletionInsideAdmissionWindow`).
- A task's local file appears while another worker transfers the same path
  (`Registry.LocalFileBranchIgnoresClaims`).
- Automatic retry re-queues a file without touching the counters
  (`Retry.AutoRetryCompletesEarly`).
- A session starts with tasks or transfers left over from the previous
  session, for instance after a retry on request. It then starts
  unaccounted (`Crawler.StartSessionAccounted`).
- A tree action, "retry selected file", puts a task on the download queue
  and raises `queued_files` without raising `total`, even during a session.
  This action is not modelled (see "Left out").

Details of the code a reader might not expect:

- A file found locally at scan time is marked done but counted neither in
  `total` nor in `success` (ftp_downloader.py:1644-1650).
- The local destination drops exactly one leading slash from the remote path
  rather than stripping the remote base (1636-1641).
- A path already in the file list is skipped before the local-file check
  (1632).
- The progress loop that actually runs is the second definition of
  `update_progress` (2778). It ends the session on
  `completed >= total and total > 0` alone. The debounced definition at 2127
  is shadowed by it. `Progress.PassesAfter` models that debounced definition.

## Model

| member | source | states |
|---|---|---|
| Messages.IsDisguisedSuccess | ftp_downloader.py:176-186 | A transfer error counts as success exactly when its text contains "200" and also "type" or "binary" in any letter case. Upper-casing or lower-casing the message, as the code does, is proved equivalent to case-insensitive search. |
| Messages.Classify | ftp_downloader.py:438-446 | "Not found" holds exactly when the text has 550, "not found" (any case) or "No such file". "Interrupted" holds exactly when none of those appear and 150 does. Everything else is generic. |
| Messages.Rewrap | ftp_downloader.py:438-446 | The raised message is the category's prefix followed by the whole original text. |
| Messages.UnwrapRewrap | ftp_downloader.py:438-446 | Rewording loses nothing: the category and the server's text can both be read back from the raised message. |
| Messages.DisguiseSurvivesRewrap | ftp_downloader.py:178 | A reworded message is a disguised success exactly when the original was. The prefixes can never create or hide a match. |
| Text.SplitJoinSpaces | ftp_downloader.py:1757-1759 | Python `split()` undoes `' '.join` on non-empty fields without whitespace. |
| Numbers.ParseSize | ftp_downloader.py:2982-2994 | Integers pass through. A string gives the value of its Python integer literal (surrounding whitespace, sign, underscore groups), or 0 when it is not one. Any other value gives 0. |
| Numbers.SizeTextRoundTrip | ftp_downloader.py:2982-2994 | A size written by `str`, padded with any whitespace, parses back to itself. |
| Numbers.PlaceholderIsRedundant | ftp_downloader.py:2987-2988 | The special case for "Unknown" and "" agrees with the integer parse falling back to 0. |
| Listing.ParseListLine | ftp_downloader.py:1756-1762 | A line gives an entry exactly when it has at least nine fields. The name is then non-empty, and the size is one whitespace-free field. |
| Listing.ListLineRoundTrip | ftp_downloader.py:1756-1762 | Eight metadata fields followed by a name of space-separated words parse to that name, the fifth field as size, and the directory flag of the first field. |
| Listing.ParsedNameIsNormalised | ftp_downloader.py:1759 | The parsed name is the line's words from the ninth on, joined by single spaces. The original spacing of the name is not kept. |
| Paths.Absolute | ftp_downloader.py:1573-1574 | The result starts with '/', and a path that already does is unchanged. |
| Paths.SpellingsAgree | ftp_downloader.py:339-344 | For a path with at most one leading slash, the absolute spelling is '/' followed by the relative spelling. |
| Paths.Relative | ftp_downloader.py:344 | The second spelling removes leading slashes and nothing else: the result is a suffix of the path, preceded only by slashes, and does not start with one. |
| Paths.ChildPath | ftp_downloader.py:1597-1601 | An entry's path contains no backslash, and it is absolute when its directory is. |
| Paths.ChildPathSplits | ftp_downloader.py:1597-1601 | For names without slashes or backslashes, the entry path splits back into the directory (trailing slashes collapsed) and the name. |
| Paths.LocalRelative | ftp_downloader.py:1636-1639 | Exactly one leading slash is dropped. |
| Paths.LocalRelativeVersusStrip | ftp_downloader.py:1636-1639 | Dropping one slash agrees with stripping all leading slashes exactly when the path does not start with "//". |
| Paths.JoinPath | ftp_downloader.py:1641 | An absolute second argument replaces the first, as `os.path.join` does. |
| Paths.LocalPath | ftp_downloader.py:1636-1641 | The destination starts with the local root unless the remote path, minus one slash, is still absolute. In that case the root is discarded and the destination is that path. |
| Paths.LocalPathUnderRoot | ftp_downloader.py:1636-1641 | A remote path with at most one leading slash lands under the local root after one separator. |
| Paths.DoubleSlashLeavesRoot | ftp_downloader.py:1636-1641 | A remote path starting with "//" gets an absolute destination, and the local root is discarded. |
| Paths.BackslashNameLeavesRoot | ftp_downloader.py:1597-1641 | A root-level name starting with a backslash yields a destination outside the local root. |
| Transfer.Spellings | ftp_downloader.py:339-372 | Two or three tries. The last two are the absolute and the relative spelling. The first is the spelling whose size was readable, if any, absolute preferred. |
| Transfer.TrySpellings | ftp_downloader.py:368-435 | Reports success exactly when some attempt succeeds. When none does, it returns the error of the final attempt, which is the relative spelling. |
| Transfer.Download | ftp_downloader.py:336-446 | Succeeds exactly when some attempt does. Otherwise it raises the reworded error of the last attempt. |
| Registry.Succeeded | ftp_downloader.py:176-186 | A transfer without error succeeds. An error whose text lacks "200" is always a failure. Otherwise it succeeds exactly when the text contains "200" and, in any case, "type" or "binary". So "200 Type set to I" is a success and "200 OK" is a failure. |
| Registry.ErrorEntry | ftp_downloader.py:193 | A failure's log entry starts with the path and a colon, and the message can be read back from it after ": ". |
| Registry.Take | ftp_downloader.py:112-147 | A non-empty local file counts one success, once per path. Otherwise a done or claimed path is dropped unchanged. Otherwise the path is claimed, and it is claimed exactly when it is neither present, done nor claimed. |
| Registry.Finish | ftp_downloader.py:161-193 | One completion, counted as a success (plain or disguised) or a failure. A success marks the path done. A failure leaves the done set alone and logs exactly one "path: message" entry. The claim is released, and no other path changes. |
| Registry.ConnectFailed | ftp_downloader.py:93-96 | A worker that cannot connect appends one entry naming itself. Nothing else changes. |
| Registry.TakeKeepsConsistent | ftp_downloader.py:112-147 | Claims keep the claimed and done sets disjoint and keep `completed == success + failed`. The local-file branch does too, when no other worker holds the path. |
| Registry.FinishKeepsConsistent | ftp_downloader.py:161-193 | Finishing a held claim keeps both facts. A failed path is not done afterwards. |
| Registry.LocalFileBranchIgnoresClaims | ftp_downloader.py:112-126 | The local-file branch does not look at the claimed set. A path can end up both claimed and done, and then be counted twice. |
| Registry.Process | ftp_downloader.py:103-193 | A task handled end to end adds at most one completion, split exactly between successes and failures. |
| Registry.ProcessOutcomes | ftp_downloader.py:103-193 | A task handled end to end has one of three effects: nothing; one success with the path done; or one failure with its log entry. |
| Crawler.SizeBytes | ftp_downloader.py:1663 | The expected bytes of a file are its size, or 0 for the "Unknown" placeholder. |
| Crawler.AdmitFile | ftp_downloader.py:1618-1683 | A file that is not done, claimed, listed or present locally is queued with its destination, listed, and counted in total, queued files and bytes. A locally present file is only marked done. A file that is done, claimed or listed changes nothing. Worker-owned fields never change. |
| Crawler.Enqueue | ftp_downloader.py:1653-1658 | First admission section: the task is appended to the download queue and counted as queued. `total`, the expected bytes, the file list, the directory state and every worker-owned field stay. |
| Crawler.CountAdmitted | ftp_downloader.py:1677-1682 | Second admission section: the path is appended to the file list and counted in `total` and the expected bytes. The queue, the directory state and every worker-owned field stay. |
| Crawler.AdmitFileInSteps | ftp_downloader.py:1653-1682 | An admitted file's one-step admission equals the two sections run back to back. |
| Crawler.AdmitAll | ftp_downloader.py:1618-1683 | Over a directory's files, the file list only grows at the end. Total and queued files grow by the number of new entries, and the queue grows by their tasks in the same order. |
| Crawler.AdmitAllAddsFresh | ftp_downloader.py:1618-1632 | Newly listed paths come from the offered files, are not held by a worker, and keep the file list free of duplicates. |
| Crawler.AdmitAllCovers | ftp_downloader.py:1618-1650 | Every offered file ends up listed or done, unless a worker held it already. |
| Crawler.SubDirs | ftp_downloader.py:1591-1608 | The queued subdirectories are exactly the entry paths of the listing's directories, '.' and '..' excluded. |
| Crawler.FilesOf | ftp_downloader.py:1591-1617 | The offered files are exactly the listing's plain files with their sizes. Other kinds, and entries whose type test failed, are skipped. |
| Crawler.ScanDir | ftp_downloader.py:1558-1700 | A directory already claimed by a scanner is left alone. Otherwise it is claimed. A failed listing changes nothing else. A successful one queues its subdirectories in listing order and admits its files: the file list grows at its end, `total` and `queuedFiles` by the number of new entries, and the download queue by their tasks in order. Nothing a worker owns changes. |
| Crawler.ScanDirCoversFiles | ftp_downloader.py:1589-1683 | Every file of a scanned directory ends up listed, done, or held by a worker. |
| Crawler.ScanDirAddsFresh | ftp_downloader.py:1618-1683 | A scan never lists a path twice, never lists a path a worker holds, and lists only plain files of the directory's own listing. |
| Crawler.ScanDirKeepsAccounted | ftp_downloader.py:1653-1683 | Scanning keeps the accounting invariant. |
| Crawler.WorkerTake | ftp_downloader.py:103-147 | A pill stops the worker and is the only thing removed. An empty queue changes nothing. For a task, the statistics become exactly `Registry.Take`'s result, and the worker holds the task exactly when Take claimed it. A free task without a local copy is always claimed. A held task was at the front of the queue and was unclaimed before. |
| Crawler.WorkerFinish | ftp_downloader.py:161-193 | Recording an outcome changes the statistics exactly as `Registry.Finish` does, and nothing else. It adds one completion, counted as a success that marks the path done or as a failure that logs one "path: message" entry, and it releases the claim. |
| Crawler.WorkerTakeKeepsAccounted | ftp_downloader.py:103-147 | Taking an item keeps the accounting, with the same number of open admission windows. The exception is the local-file branch hitting a path another worker holds. |
| Crawler.WorkerFinishKeepsAccounted | ftp_downloader.py:161-193 | Finishing a held transfer keeps the accounting, with the same number of open admission windows. |
| Crawler.EnqueueOpensWindow | ftp_downloader.py:1653-1658 | Putting a task before counting it leaves the accounting off by at most one more file. |
| Crawler.CountClosesWindow | ftp_downloader.py:1677-1682 | Counting the file closes its window again. |
| Crawler.CompleteMeansIdle | ftp_downloader.py:2852 | Under the accounting, `completed >= total` means nothing is queued or in flight, and `completed == total`. |
| Crawler.StartSession | ftp_downloader.py:2438-2485 | All counters, the log, the expected bytes and the queued-file count reset. Scanned directories are forgotten and the directory queue holds only the base. The done and in-flight sets, the file list and the download queue carry over. |
| Crawler.StartSessionAccounted | ftp_downloader.py:2438-2485 | A new session starts accounted exactly when no task or transfer is left from the previous one. |
| Crawler.ListedPathsStayExcluded | ftp_downloader.py:1632 | Paths listed in an earlier session are never admitted again, because the file list is not cleared. |
| Lifecycle.Initial | ftp_downloader.py:2482-2485 | The scanner counter starts at 0, not done, with no pills sent. |
| Lifecycle.Connected | ftp_downloader.py:2533-2536 | A connected scanner adds one to the counter. |
| Lifecycle.ConnectAll | ftp_downloader.py:2533-2536 | After k connections the counter is k, with nothing signalled. |
| Lifecycle.Leave | ftp_downloader.py:2594-2602 | Leaving subtracts one. The scanner that reaches zero marks discovery done and sends one pill per worker. |
| Lifecycle.TryExit | ftp_downloader.py:2566-2579 | An idle scanner leaves exactly when the directory queue is empty and the counter is at most one. |
| Lifecycle.ConnectFailed | ftp_downloader.py:2606-2620 | A failed connection also subtracts one, although it never added one. |
| Lifecycle.ExitChecks | ftp_downloader.py:2566-2579 | A series of exit checks never raises the counter. |
| Lifecycle.ExitRefusedWhileTwoCounted | ftp_downloader.py:2570-2579 | While the counter is at least two, the exit check is refused, whatever the queue shows. |
| Lifecycle.NoExitWithTwoConnected | ftp_downloader.py:2570-2579 | With two or more scanners connected, no exit check is ever enabled, whatever the queue shows. |
| Lifecycle.DefaultSessionNeverSignals | ftp_downloader.py:2570-2579 | With the default four scanners connected, discovery is never marked done and no pill is sent. |
| Lifecycle.FailedConnectSignalsEarly | ftp_downloader.py:2606-2620 | One scanning and one failing to connect: discovery is marked done and pills are sent while the first is still scanning. |
| Lifecycle.AllConnectsFailedNeverSignals | ftp_downloader.py:2606-2620 | When all four connections fail, the counter reaches -4 and discovery is never marked done. |
| Lifecycle.Launch | ftp_downloader.py:2622-2625 | The corrected count starts with every launched scanner alive and none busy, satisfying its invariant. |
| Lifecycle.Retire | ftp_downloader.py:2594-2620 | Corrected leaving: one fewer alive scanner. Only the last one marks done and sends the pills. |
| Lifecycle.TryRetire | ftp_downloader.py:2570-2579 | Corrected exit check: enabled exactly when the queue is empty and no scanner is mid-directory. |
| Lifecycle.TeamStepsKeepInv | ftp_downloader.py:2566-2620 | Every corrected step keeps the invariant: busy ≤ alive, done exactly when none is alive, and exactly one pill per worker once done. |
| Lifecycle.DoneMeansNobodyScans | ftp_downloader.py:2594-2602 | Corrected: done implies no scanner is alive or busy, and exactly one pill per worker was sent. |
| Lifecycle.IdleScannersFinish | ftp_downloader.py:2566-2602 | Corrected: idle scanners on an empty queue always finish discovery with exactly one pill per worker. |
| Lifecycle.NoEarlySignal | ftp_downloader.py:2606-2620 | Corrected: a scanner leaving while another is busy never ends discovery. |
| Retry.Forget | ftp_downloader.py:1957-1961 | A completed file leaves the failure list, and every other failure stays. |
| Retry.ForgetAppend | ftp_downloader.py:1957-1961 | Forgetting works on each part of a concatenated list separately, so the remaining failures keep their order. |
| Retry.ForgetOne | ftp_downloader.py:1957-1961 | A single failure stays exactly when it is for another file. With the previous row this fixes the result. |
| Retry.OnFailed | ftp_downloader.py:1976-2038 | A file already on the list changes nothing. With auto-retry on during a session, the file is re-queued with its destination, it leaves the done set, and `queued_files` rises by one; nothing else in the crawl state changes. Otherwise it joins the list and the crawl state is unchanged. The counters never change. |
| Retry.FailuresStayUnique | ftp_downloader.py:1957-1986 | The failure list never names a file twice. |
| Retry.FirstField | ftp_downloader.py:2098 | `split(':')[0]`: the text before the first colon, or the whole text when there is none. |
| Retry.DropEntries | ftp_downloader.py:2100 | The kept entries are exactly those starting with none of the paths followed by ':'. |
| Retry.DropEntriesAppend | ftp_downloader.py:2100 | Filtering works entry by entry: on a concatenated log it gives the concatenation of the two results. |
| Retry.DropEntriesOne | ftp_downloader.py:2100 | A single entry is kept exactly when no path owns it. Together with the previous row this fixes the result: the kept entries stay in their order, with their repetitions. |
| Retry.ClearErrors | ftp_downloader.py:2100 | The log without the path's entries, in order. It keeps exactly the entries not starting with the path followed by ':'. |
| Retry.ClearErrorsAsWritten | ftp_downloader.py:2098-2100 | The log is filtered only when the path equals the text before the first colon of some entry. |
| Retry.ClearingAgreesWithoutColon | ftp_downloader.py:2098-2100 | For paths without a colon, the guarded clearing equals the plain filter. |
| Retry.ColonPathKeepsError | ftp_downloader.py:2098-2100 | For a path with a colon, the guard never matches and the file's own entry survives. The corrected clearing removes it. |
| Retry.ClearErrorsRemovesEntries | ftp_downloader.py:2100 | The corrected clearing removes every entry a failure of the path logged, and keeps every entry that the path followed by ':' does not begin. |
| Retry.Requeue | ftp_downloader.py:2053-2100 | Failures are re-queued in list order with their destinations. The counters and the file list do not change. |
| Retry.RequeueOne | ftp_downloader.py:2053-2100 | One failure is re-queued and forgotten as done. Its entries are cleared with the chosen clearing, which only removes entries and keeps every entry not owned by the path, where the path followed by ':' owns every entry it begins. With the corrected clearing, it removes exactly the path's entries. |
| Retry.RequeueForgetsDone | ftp_downloader.py:2093-2096 | The done set loses exactly the retried paths. |
| Retry.RequeueDropsErrors | ftp_downloader.py:2097-2100 | With the corrected clearing, the log becomes exactly the old log filtered of the retried paths' entries, in order and with repetitions. |
| Retry.RequeueKeepsOthers | ftp_downloader.py:2097-2100 | Either clearing, including the program's, only removes entries, and keeps every entry owned by no retried path. |
| Retry.RequeueAgreesWithoutColons | ftp_downloader.py:2097-2100 | When no retried path contains a colon, the program's guarded clearing and the corrected one give the same state. |
| Retry.RetryAll | ftp_downloader.py:2041-2111 | The program's retry is `RetryAll(u, running, AsWritten)`. Nothing happens with an empty list or during a session. Otherwise every failure is re-queued, and the done set loses exactly the retried paths. The log only loses entries and keeps every entry owned by no retried path, where a path followed by ':' owns every entry it begins. With the corrected clearing, it is exactly the filtered log in order. The list is emptied. `failed` drops by the count, not below zero. `completed`, `success` and `total` stay. |
| Retry.RetryDropsEntries | ftp_downloader.py:2097-2100 | After a corrected retry, no entry logged for a retried file remains. |
| Retry.RetryAgreesWithoutColons | ftp_downloader.py:2097-2100 | The program's retry equals the corrected one whenever no failed path contains a colon. |
| Retry.ColonPathSurvivesRetry | ftp_downloader.py:2098-2100 | A failure of "/a:b": the program's retry keeps its entry, and the corrected retry removes it. |
| Retry.ExtendedPathEntryCleared | ftp_downloader.py:2098-2100 | Clearing "/a" removes the entry of a file "/a:b" as well, under either clearing. |
| Retry.RetryClearsExtendedPath | ftp_downloader.py:2041-2111 | Retrying "/a" leaves no entry of "/a:b" in the log, in the program's retry and in the corrected one. |
| Retry.StartUiSession | ftp_downloader.py:2438-2462 | Session start also empties the failure list, besides resetting the crawl state. |
| Retry.NoRetryAfterStart | ftp_downloader.py:2460-2462 | Right after a session starts, retry-on-request does nothing: failures of the earlier session are gone. |
| Retry.RetryBreaksCountIdentity | ftp_downloader.py:2107-2111 | With a failure counted, a retry leaves `completed > success + failed`. |
| Retry.AutoRetryCompletesEarly | ftp_downloader.py:1998-2038 | One file fails and is auto-retried. Then `completed == total` while its second attempt still waits in the queue. |
| Progress.PendingAsWritten | ftp_downloader.py:2848 | Under `completed == success + failed`, the figure shown is `max(0, total - success - 2*failed)`. |
| Progress.Pending | ftp_downloader.py:2848 | Corrected figure: with the counters consistent, pending + success + failed == total. |
| Progress.PendingCoversOutstanding | ftp_downloader.py:2848 | Under the accounting, the corrected figure is at least the number of queued and in-flight files. |
| Progress.PendingAsWrittenUndercounts | ftp_downloader.py:2848 | Whenever a file has failed and the session is not done, the figure shown is below the files left. For example, 10 files with 3 successes and 2 failures show 3, not 5. |
| Progress.SessionComplete | ftp_downloader.py:2852 | The end-of-session test holds exactly when a file was admitted and the corrected pending figure is zero. |
| Progress.CompletionInsideAdmissionWindow | ftp_downloader.py:1653-1682 | A file put on the queue but not yet counted is taken by a worker. The test then passes with the file in flight. After the count, the accounting holds again and the test fails. |
| Progress.CompleteLeavesNothingOutstanding | ftp_downloader.py:2852 | Under the accounting, the end-of-session test passes only with nothing queued or in flight. |
| Progress.CompleteIgnoresDiscovery | ftp_downloader.py:2852 | The test passes while a directory is still waiting to be scanned. |
| Progress.PassesAfter | ftp_downloader.py:2232-2248 | The consecutive-pass counter never exceeds the number of observations, and is positive only if the last observation passed. |
| Progress.PassesAfterIsQuietSuffix | ftp_downloader.py:2232-2248 | The consecutive-pass counter is at least k exactly when the last k observations all passed. |
| Progress.FinalCheckAfterFiveQuiet | ftp_downloader.py:2150-2248 | Final verification is scheduled exactly when the last five observations satisfied every completion condition. |

## Left out

- User interface: the tree view, listboxes, message boxes, the log, size display strings and the `error_msg[:100]` truncation of status text. None of it changes the counters, except through the exception path in the next line.
- A status callback that raises inside the worker's transfer block (149-199): the calls at 152 and 171 run inside the `try`. If the "Completed" callback at 171 raises, for example because the tree item was already removed, the failure branch at 189-193 runs after the success section at 163-167. That records a second completion and a failure for one task. Registry.Finish and Registry.Process assume the callbacks never raise, so they count exactly one completion.
- An exception inside a scanner pass (1708-1709): the whole pass sits in `except Exception: pass`. An error during admission, such as `os.path.getsize` at 1644 on a local file that has just vanished, ends the pass early. The directory's remaining files and all its subdirectories are then dropped, and the directory stays in `scanned_dirs`, so no scanner rescans it. Crawler.ScanDir and Crawler.ScanDirCoversFiles model only passes that run to the end.
- Crawler.AdmitAll, Crawler.ScanDir: the expected byte count is stated per admission (Crawler.AdmitFile, Crawler.CountAdmitted), not as a sum over a whole directory. It feeds only the byte progress display.
- Byte counters, speed, ETA and progress percentage: these are floating point and clock based.
- Network and disk I/O: ftputil/ftplib calls and local file existence checks become parameters; directory creation and modification-time copying are side effects with no bookkeeping role.
- Threads, locks and blocking queue waits: each locked section is one atomic transition, and a schedule is a sequence of transitions.
- Crawler.AdmitFile: one step for the whole admission. The program's two critical sections are modelled separately by Crawler.Enqueue and Crawler.CountAdmitted. `queued_files` is raised in its own section right after the put (1655-1658); Enqueue merges the two, since no invariant reads that counter. The file-list check (1632) and append (1677) run without any lock, so two scanners can both admit one path; that race is not modelled.
- Crawler.ScanDirKeepsAccounted: holds for a pass whose admissions are not interleaved with worker steps. With interleaving, `AccountedWithin` with the open windows is what holds.
- Crawler.AdmitAllAddsFresh: states that new paths come from the offered files, not that they keep the listing's order.
- Sequential (non-parallel) scanning, the recursive branch at 1700-1705: sessions always pass a directory queue.
- The other listing routes (disabled recursive `LIST`, MLSD/NLST fallbacks, the `LIST` parsers at 241, 1230, 1406 and 2712), the ftplib-based scan, the wget path and `_download_recursive`: none is on the path of a parallel session.
- `_retry_selected_file` (943-982): a per-file user action on the tree, outside the modelled core. It has no `is_downloading` guard. During a session it puts a task on the queue the workers read (966) and raises `queued_files` without `total` (968-971), which is another way out of Crawler.Accounted, like automatic retry. It also deletes only the dict entry (973-974), so the program's failure list and failure dict fall out of step; the model keeps them as one list, Retry.Ui.failures.
- The fall-through after a timed-out wait when the directory queue refills before the exit check (2570-2584): the scanner rescans a stale `current_path`. The rescan itself changes nothing, since that directory is already claimed. If no directory was taken before, the name is unbound and the code raises. Either way, `dir_queue.task_done()` runs once too often, so a later call raises. Each error ends the scanner through the handler at 2606-2620, which is `Lifecycle.Leave`. The schedules that trigger these errors are not modelled, and neither are the exits they add to the as-written lifecycle lemmas.
- `_final_completion_check` (2250-2407): its timed re-verification passes are not modelled, only the debounce counter that schedules it.
- The generic worker exception entry "Worker {id} error": it is raised only by failures outside the transfer logic.
- Retry.DropEntries, Retry.ClearErrors: both the program's clearing and the corrected one delete the entries of any path that extends a retried path with ':' (retrying "/a" removes the entries of "/a:b"; Retry.RetryClearsExtendedPath). The entry text does not say where the path ends, so the model keeps this.
- Paths.JoinPath: the POSIX `os.path.join` only. The program also runs on Windows (1061), where `ntpath` treats drive letters and backslashes differently; Paths.LocalPath, Paths.DoubleSlashLeavesRoot and Paths.BackslashNameLeavesRoot are statements about POSIX.
- Text.Upper, Text.Lower: ASCII letters only; Python's full Unicode case mapping is not modelled.
- Numbers.PyInt: ASCII decimal digits only; Python's `int()` also accepts other Unicode decimal digits.

## Findings

| source | as written | input that shows it | evidently intended | confidence | as-written member | corrected member |
|---|---|---|---|---|---|---|
| ftp_downloader.py:2848 | `pending = max(0, total - completed - failed)`, but `completed` already includes failures | total 10, success 3, failed 2 (completed 5) shows 3 pending | `max(0, total - completed)`, here 5 | high, not executed | Progress.PendingAsWrittenUndercounts | Progress.PendingCoversOutstanding |
| ftp_downloader.py:2098-2100 | error entries are cleared only if the path equals some entry's text before its first colon | path "/a:b" with entry "/a:b: 550 timeout": the guard compares against "/a" and the entry survives | drop every entry starting with the path followed by ':' | high, not executed | Retry.ColonPathSurvivesRetry | Retry.RetryDropsEntries |
| ftp_downloader.py:2570-2579 | an idle scanner exits only if the counter is at most 1, but every connected scanner keeps the counter up while idling | four scanners connected and the directory queue empty: every exit check is refused, discovery is never marked done and no pill is sent | exit when the queue is empty and no scanner is mid-directory | medium, not executed | Lifecycle.DefaultSessionNeverSignals | Lifecycle.IdleScannersFinish |
| ftp_downloader.py:2606-2620 | the exception handler decrements the counter even when the connection, made before the increment, failed | one scanner connected and scanning, a second fails to connect: the counter hits 0, discovery is marked done and pills are sent mid-scan | only scanners that added themselves are subtracted, and the end is signalled when the last scanner leaves | high, not executed | Lifecycle.FailedConnectSignalsEarly | Lifecycle.NoEarlySignal |

=== FILE: crawler.dfy ===
/** The scanners' side of a session: directories are taken from a shared
    directory queue, listed once each, and every file found is either
    admitted (put on the download queue, recorded in the file list and
    counted in `total`) or dropped. Workers take items from the other end of
    the download queue. Every locked section is one transition on a `Crawl`;
    the admission of a file, which the source spreads over several sections,
    is taken as one. */
module Crawler {
  import opened Optional
  import opened Paths
  import opened Numbers
  import opened Registry
  import opened Transfer

  /** An item of the download queue: a task, or the "poison pill" that stops
      one worker. */
  datatype Item = Job(task: Task) | Pill

  /** The state the scanners and workers share. */
  datatype Crawl = Crawl(
    stats: Stats,
    queue: seq<Item>,          // the download queue, front first
    fileList: seq<string>,     // every remote path ever admitted
    scannedDirs: set<string>,  // directories claimed by some scanner
    dirQueue: seq<string>      // directories waiting to be scanned
  )

  /** What the server says a directory entry is. `Special` is neither a
      directory nor a file; `Unknowable` is an entry whose type test
      failed. A file's size is absent when it could not be read. */
  datatype Kind = Directory | File(size: Option<int>) | Special | Unknowable

  datatype DirEntry = DirEntry(name: string, kind: Kind)

  predicate IsDotName(name: string) {
    name == "." || name == ".."
  }

  ghost predicate NoDup(s: seq<string>) {
    forall i, j :: 0 <= i < j < |s| ==> s[i] != s[j]
  }

  /** The byte count a file adds to the expected total: its size, or 0 when
      the size is the placeholder "Unknown". */
  function SizeBytes(size: Option<int>): (b: int)
    ensures size.Some? ==> b == size.value
    ensures size.None? ==> b == 0
  {
    match size
    case Some(n) => ParseSize(IntSize(n))
    case None =>
      PlaceholdersAreNotIntegers();
      ParseSize(StrSize("Unknown"))
  }

  /** The tasks for a run of admitted paths. */
  function JobsFor(paths: seq<string>, localDir: string): (q: seq<Item>)
    ensures |q| == |paths|
    ensures forall i :: 0 <= i < |q| ==> q[i] == Job(Task(paths[i], LocalPath(localDir, paths[i])))
  {
    seq(|paths|, i requires 0 <= i < |paths| => Job(Task(paths[i], LocalPath(localDir, paths[i]))))
  }

  /** A file is admitted when it is neither done, nor claimed, nor already
      listed, and its local destination is missing or empty. */
  ghost predicate Admissible(c: Crawl, remote: string, local: string, present: string -> bool) {
    && remote !in c.stats.downloaded
    && remote !in c.stats.downloading
    && remote !in c.fileList
    && !present(local)
  }

  /** The parts of the bookkeeping that only workers change. */
  ghost predicate WorkerFieldsKept(s: Stats, r: Stats) {
    && r.downloading == s.downloading
    && r.completed == s.completed && r.success == s.success && r.failed == s.failed
    && r.errors == s.errors
  }

  /** Offers one file the scanner found. `present` says whether a local file
      exists and is non-empty. An admissible file is queued, listed and
      counted; a file whose local copy is already there is only marked done,
      without being counted; any other file is dropped. */
  function AdmitFile(c: Crawl, remote: string, size: Option<int>, localDir: string,
                     present: string -> bool): (r: Crawl)
    ensures var local := LocalPath(localDir, remote);
            Admissible(c, remote, local, present) ==>
              && r.queue == c.queue + [Job(Task(remote, local))]
              && r.fileList == c.fileList + [remote]
              && r.stats.total == c.stats.total + 1
              && r.stats.queuedFiles == c.stats.queuedFiles + 1
              && r.stats.bytesExpected == c.stats.bytesExpected + SizeBytes(size)
              && r.stats.downloaded == c.stats.downloaded
    ensures var local := LocalPath(localDir, remote);
            !Admissible(c, remote, local, present) ==>
              && r.queue == c.queue && r.fileList == c.fileList
              && r.stats.total == c.stats.total && r.stats.queuedFiles == c.stats.queuedFiles
              && r.stats.bytesExpected == c.stats.bytesExpected
    ensures var local := LocalPath(localDir, remote);
            remote !in c.stats.downloading && remote !in c.fileList && present(local) ==>
              r.stats.downloaded == c.stats.downloaded + {remote}
    ensures remote in c.stats.downloaded || remote in c.stats.downloading || remote in c.fileList ==> r == c
    ensures WorkerFieldsKept(c.stats, r.stats)
    ensures r.scannedDirs == c.scannedDirs && r.dirQueue == c.dirQueue
  {
    var s := c.stats;
    if remote in s.downloaded || remote in s.downloading then c
    else if remote in c.fileList then c
    else
      var local := LocalPath(localDir, remote);
      if present(local) then
        c.(stats := s.(downloaded := s.downloaded + {remote}))
      else
        c.(queue := c.queue + [Job(Task(remote, local))],
           fileList := c.fileList + [remote],
           stats := s.(queuedFiles := s.queuedFiles + 1, total := s.total + 1,
                       bytesExpected := s.bytesExpected + SizeBytes(size)))
  }

  /** The first of the two critical sections an admission takes in the
      program: the task goes on the download queue and is counted as
      queued. A worker may take it from here on. */
  function Enqueue(c: Crawl, remote: string, local: string): (r: Crawl)
    ensures r.queue == c.queue + [Job(Task(remote, local))]
    ensures r.stats.queuedFiles == c.stats.queuedFiles + 1
    ensures r.stats.total == c.stats.total && r.fileList == c.fileList
    ensures r.stats.bytesExpected == c.stats.bytesExpected
    ensures r.scannedDirs == c.scannedDirs && r.dirQueue == c.dirQueue
    ensures WorkerFieldsKept(c.stats, r.stats) && r.stats.downloaded == c.stats.downloaded
  {
    c.(queue := c.queue + [Job(Task(remote, local))],
       stats := c.stats.(queuedFiles := c.stats.queuedFiles + 1))
  }

  /** The second: the file is listed and only now counted in `total` and
      the expected bytes. */
  function CountAdmitted(c: Crawl, remote: string, size: Option<int>): (r: Crawl)
    ensures r.fileList == c.fileList + [remote]
    ensures r.stats.total == c.stats.total + 1
    ensures r.stats.bytesExpected == c.stats.bytesExpected + SizeBytes(size)
    ensures r.queue == c.queue && r.stats.queuedFiles == c.stats.queuedFiles
    ensures r.scannedDirs == c.scannedDirs && r.dirQueue == c.dirQueue
    ensures WorkerFieldsKept(c.stats, r.stats) && r.stats.downloaded == c.stats.downloaded
  {
    c.(fileList := c.fileList + [remote],
       stats := c.stats.(total := c.stats.total + 1,
                         bytesExpected := c.stats.bytesExpected + SizeBytes(size)))
  }

  /** An admission is the two sections run back to back. */
  lemma AdmitFileInSteps(c: Crawl, remote: string, size: Option<int>, localDir: string,
                         present: string -> bool)
    requires Admissible(c, remote, LocalPath(localDir, remote), present)
    ensures AdmitFile(c, remote, size, localDir, present)
            == CountAdmitted(Enqueue(c, remote, LocalPath(localDir, remote)), remote, size)
  {
  }

  /** The paths of a run of (path, detail) pairs: found files with their
      sizes, or failed files with their destinations. */
  function Names<T>(files: seq<(string, T)>): (ns: seq<string>)
    ensures |ns| == |files|
    ensures forall i :: 0 <= i < |files| ==> ns[i] == files[i].0
  {
    seq(|files|, i requires 0 <= i < |files| => files[i].0)
  }

  /** Offers the files of one directory in listing order. The file list
      grows by exactly the admitted paths, `total` by their number, and the
      queue by their tasks in the same order; every offered file ends up
      listed, done, or was claimed by a worker already. */
  function AdmitAll(c: Crawl, files: seq<(string, Option<int>)>, localDir: string,
                    present: string -> bool): (r: Crawl)
    ensures r.scannedDirs == c.scannedDirs && r.dirQueue == c.dirQueue
    ensures WorkerFieldsKept(c.stats, r.stats)
    ensures |c.fileList| <= |r.fileList| && r.fileList[..|c.fileList|] == c.fileList
    ensures r.stats.total == c.stats.total + (|r.fileList| - |c.fileList|)
    ensures r.stats.queuedFiles == c.stats.queuedFiles + (|r.fileList| - |c.fileList|)
    ensures r.queue == c.queue + JobsFor(r.fileList[|c.fileList|..], localDir)
    ensures c.stats.downloaded <= r.stats.downloaded
    decreases |files|
  {
    if |files| == 0 then
      assert c.fileList[|c.fileList|..] == [];
      c
    else
      var c1 := AdmitFile(c, files[0].0, files[0].1, localDir, present);
      var r := AdmitAll(c1, files[1..], localDir, present);
      AdmitFileGrows(c, files[0].0, files[0].1, localDir, present);
      GrowsTrans(c, c1, r, localDir);
      r
  }

  /** What one admission step, and so a whole directory pass, does to the
      scanner-owned bookkeeping: the file list grows at its end, `total`
      and `queuedFiles` by the number of new entries, the queue by their
      tasks in order, and nothing a worker owns changes. */
  ghost predicate Grows(a: Crawl, b: Crawl, localDir: string) {
    ListGrows(a, b, localDir) && OthersKept(a, b)
  }

  ghost predicate ListGrows(a: Crawl, b: Crawl, localDir: string) {
    && |a.fileList| <= |b.fileList| && b.fileList[..|a.fileList|] == a.fileList
    && b.stats.total == a.stats.total + (|b.fileList| - |a.fileList|)
    && b.stats.queuedFiles == a.stats.queuedFiles + (|b.fileList| - |a.fileList|)
    && b.queue == a.queue + JobsFor(b.fileList[|a.fileList|..], localDir)
  }

  ghost predicate OthersKept(a: Crawl, b: Crawl) {
    && b.scannedDirs == a.scannedDirs && b.dirQueue == a.dirQueue
    && WorkerFieldsKept(a.stats, b.stats)
    && a.stats.downloaded <= b.stats.downloaded
  }

  lemma AdmitFileGrows(c: Crawl, remote: string, size: Option<int>, localDir: string,
                       present: string -> bool)
    ensures Grows(c, AdmitFile(c, remote, size, localDir, present), localDir)
  {
    var r := AdmitFile(c, remote, size, localDir, present);
    if Admissible(c, remote, LocalPath(localDir, remote), present) {
      assert r.fileList[|c.fileList|..] == [remote];
      assert r.fileList[..|c.fileList|] == c.fileList;
    } else {
      assert r.fileList[|c.fileList|..] == [];
    }
  }

  lemma GrowsTrans(a: Crawl, b: Crawl, c: Crawl, localDir: string)
    requires Grows(a, b, localDir) && Grows(b, c, localDir)
    ensures Grows(a, c, localDir)
  {
    ListGrowsTrans(a, b, c, localDir);
  }

  lemma ListGrowsTrans(a: Crawl, b: Crawl, c: Crawl, localDir: string)
    requires ListGrows(a, b, localDir) && ListGrows(b, c, localDir)
    ensures ListGrows(a, c, localDir)
  {
    var x := b.fileList[|a.fileList|..];
    var y := c.fileList[|b.fileList|..];
    ExtendsTrans(a.fileList, b.fileList, c.fileList);
    QueueTrans(a.queue, b.queue, c.queue, x, y, localDir);
  }

  lemma QueueTrans(qa: seq<Item>, qb: seq<Item>, qc: seq<Item>, x: seq<string>, y: seq<string>,
                   localDir: string)
    requires qb == qa + JobsFor(x, localDir) && qc == qb + JobsFor(y, localDir)
    ensures qc == qa + JobsFor(x + y, localDir)
  {
    JobsForAppend(x, y, localDir);
  }

  /** Extending a sequence at its end, twice. */
  lemma ExtendsTrans<T>(a: seq<T>, b: seq<T>, c: seq<T>)
    requires |a| <= |b| && b[..|a|] == a
    requires |b| <= |c| && c[..|b|] == b
    ensures c[..|a|] == a
    ensures c[|a|..] == b[|a|..] + c[|b|..]
  {
    assert c[..|a|] == c[..|b|][..|a|];
    assert c[|a|..] == c[|a|..|b|] + c[|b|..];
    assert c[|a|..|b|] == b[|a|..];
  }

  lemma JobsForAppend(a: seq<string>, b: seq<string>, localDir: string)
    ensures JobsFor(a + b, localDir) == JobsFor(a, localDir) + JobsFor(b, localDir)
  {
  }

  /** The paths a directory pass admits are new: not listed before, not
      repeated among themselves, and not held by a worker; each is one of
      the offered files. */
  lemma {:induction false} AdmitAllAddsFresh(c: Crawl, files: seq<(string, Option<int>)>,
                                             localDir: string, present: string -> bool)
    ensures var r := AdmitAll(c, files, localDir, present);
            && (NoDup(c.fileList) ==> NoDup(r.fileList))
            && (forall p :: p in r.fileList[|c.fileList|..] ==> p !in c.stats.downloading)
            && (forall p :: p in r.fileList[|c.fileList|..] ==> p in Names(files))
    decreases |files|
  {
    var r := AdmitAll(c, files, localDir, present);
    if |files| == 0 {
      assert r.fileList[|c.fileList|..] == [];
    } else {
      var c1 := AdmitFile(c, files[0].0, files[0].1, localDir, present);
      AdmitAllAddsFresh(c1, files[1..], localDir, present);
      assert r.fileList[..|c1.fileList|] == c1.fileList;
      assert r.fileList[|c.fileList|..] == c1.fileList[|c.fileList|..] + r.fileList[|c1.fileList|..];
      assert forall p :: p in Names(files[1..]) ==> p in Names(files);
      if NoDup(c.fileList) {
        assert NoDup(c1.fileList);
      }
    }
  }

  /** Every offered file ends up listed or done, unless a worker already
      held it when the pass began. */
  lemma {:induction false} AdmitAllCovers(c: Crawl, files: seq<(string, Option<int>)>,
                                          localDir: string, present: string -> bool)
    ensures var r := AdmitAll(c, files, localDir, present);
            forall i :: 0 <= i < |files| ==>
              files[i].0 in r.fileList || files[i].0 in r.stats.downloaded
              || files[i].0 in c.stats.downloading
    decreases |files|
  {
    if |files| > 0 {
      var c1 := AdmitFile(c, files[0].0, files[0].1, localDir, present);
      var r := AdmitAll(c1, files[1..], localDir, present);
      AdmitAllCovers(c1, files[1..], localDir, present);
      var p := files[0].0;
      assert p in c1.fileList || p in c1.stats.downloaded || p in c.stats.downloading;
      if p in c1.fileList {
        assert r.fileList[..|c1.fileList|] == c1.fileList;
        assert p in r.fileList[..|c1.fileList|];
      }
      forall i | 1 <= i < |files|
        ensures files[i].0 in r.fileList || files[i].0 in r.stats.downloaded
                || files[i].0 in c.stats.downloading
      {
        assert files[i] == files[1..][i - 1];
      }
    }
  }

  /** The directories of a listing, as remote paths under `cur`, in listing
      order. */
  function SubDirs(cur: string, entries: seq<DirEntry>): (ds: seq<string>)
    ensures forall i :: 0 <= i < |entries| && entries[i].kind.Directory? && !IsDotName(entries[i].name)
              ==> ChildPath(cur, entries[i].name) in ds
    ensures forall d :: d in ds ==>
              (exists i :: 0 <= i < |entries| && entries[i].kind.Directory?
                 && !IsDotName(entries[i].name) && d == ChildPath(cur, entries[i].name))
  {
    if |entries| == 0 then []
    else
      var e := entries[0];
      var rest := SubDirs(cur, entries[1..]);
      assert forall i :: 1 <= i < |entries| ==> entries[i] == entries[1..][i - 1];
      (if e.kind.Directory? && !IsDotName(e.name) then [ChildPath(cur, e.name)] else []) + rest
  }

  /** The plain files of a listing with their sizes, as remote paths under
      `cur`, in listing order. Entries of other kinds, and entries whose
      type cannot be told, are skipped. */
  function FilesOf(cur: string, entries: seq<DirEntry>): (fs: seq<(string, Option<int>)>)
    ensures forall i :: 0 <= i < |entries| && entries[i].kind.File? && !IsDotName(entries[i].name)
              ==> (ChildPath(cur, entries[i].name), entries[i].kind.size) in fs
    ensures forall f :: f in fs ==>
              (exists i :: 0 <= i < |entries| && entries[i].kind.File?
                 && !IsDotName(entries[i].name) && f == (ChildPath(cur, entries[i].name), entries[i].kind.size))
  {
    if |entries| == 0 then []
    else
      var e := entries[0];
      var rest := FilesOf(cur, entries[1..]);
      assert forall i :: 1 <= i < |entries| ==> entries[i] == entries[1..][i - 1];
      (if e.kind.File? && !IsDotName(e.name) then [(ChildPath(cur, e.name), e.kind.size)] else []) + rest
  }

  /** One scanner's pass over one directory. A directory already claimed by
      a scanner is left alone; otherwise it is claimed, and when it can be
      entered and listed its files are offered and its subdirectories are put
      on the directory queue. `listing` is `None` when changing into or
      listing the directory fails. */
  function ScanDir(c: Crawl, current: string, listing: Option<seq<DirEntry>>,
                   localDir: string, present: string -> bool): (r: Crawl)
    ensures current in r.scannedDirs
    ensures current in c.scannedDirs ==> r == c
    ensures current !in c.scannedDirs ==> r.scannedDirs == c.scannedDirs + {current}
    ensures listing.None? ==> r == c.(scannedDirs := c.scannedDirs + {current})
    ensures current !in c.scannedDirs && listing.Some? ==>
              r.dirQueue == c.dirQueue + SubDirs(Absolute(current), listing.value)
    ensures WorkerFieldsKept(c.stats, r.stats)
    ensures |c.fileList| <= |r.fileList| && r.fileList[..|c.fileList|] == c.fileList
    ensures r.stats.total == c.stats.total + (|r.fileList| - |c.fileList|)
    ensures r.stats.queuedFiles == c.stats.queuedFiles + (|r.fileList| - |c.fileList|)
    ensures r.queue == c.queue + JobsFor(r.fileList[|c.fileList|..], localDir)
    ensures c.stats.downloaded <= r.stats.downloaded
  {
    if current in c.scannedDirs then
      assert c.fileList[|c.fileList|..] == [];
      c
    else
      var c1 := c.(scannedDirs := c.scannedDirs + {current});
      match listing
      case None =>
        assert c.fileList[|c.fileList|..] == [];
        c1
      case Some(entries) =>
        var cur := Absolute(current);
        var c2 := AdmitAll(c1, FilesOf(cur, entries), localDir, present);
        c2.(dirQueue := c2.dirQueue + SubDirs(cur, entries))
  }

  /** Every file of a listed directory is accounted for after the pass:
      listed for download, done, or claimed by a worker. */
  lemma ScanDirCoversFiles(c: Crawl, current: string, entries: seq<DirEntry>,
                           localDir: string, present: string -> bool, i: nat)
    requires current !in c.scannedDirs
    requires i < |entries| && entries[i].kind.File? && !IsDotName(entries[i].name)
    ensures var r := ScanDir(c, current, Some(entries), localDir, present);
            var p := ChildPath(Absolute(current), entries[i].name);
            p in r.fileList || p in r.stats.downloaded || p in c.stats.downloading
  {
    var cur := Absolute(current);
    var files := FilesOf(cur, entries);
    var f := (ChildPath(cur, entries[i].name), entries[i].kind.size);
    assert f in files;
    var k :| 0 <= k < |files| && files[k] == f;
    var c1 := c.(scannedDirs := c.scannedDirs + {current});
    var c2 := AdmitAll(c1, files, localDir, present);
    AdmitAllCovers(c1, files, localDir, present);
    assert files[k].0 in c2.fileList || files[k].0 in c2.stats.downloaded
           || files[k].0 in c1.stats.downloading;
  }

  /** A scanner pass never lists a path twice, never lists a path a worker
      holds, and lists only files of the directory's listing. */
  lemma ScanDirAddsFresh(c: Crawl, current: string, listing: Option<seq<DirEntry>>,
                         localDir: string, present: string -> bool)
    ensures var r := ScanDir(c, current, listing, localDir, present);
            && (NoDup(c.fileList) ==> NoDup(r.fileList))
            && (forall p :: p in r.fileList[|c.fileList|..] ==> p !in c.stats.downloading)
            && (listing.Some? ==>
                  forall p :: p in r.fileList[|c.fileList|..] ==>
                    p in Names(FilesOf(Absolute(current), listing.value)))
  {
    var r := ScanDir(c, current, listing, localDir, present);
    if current !in c.scannedDirs && listing.Some? {
      var c1 := c.(scannedDirs := c.scannedDirs + {current});
      AdmitAllAddsFresh(c1, FilesOf(Absolute(current), listing.value), localDir, present);
    } else {
      assert r.fileList[|c.fileList|..] == [];
    }
  }

  /** The number of tasks waiting in the download queue. */
  function PendingJobs(q: seq<Item>): (n: nat)
    ensures n <= |q|
  {
    if |q| == 0 then 0 else (if q[0].Job? then 1 else 0) + PendingJobs(q[1..])
  }

  lemma {:induction false} PendingJobsAppend(a: seq<Item>, b: seq<Item>)
    ensures PendingJobs(a + b) == PendingJobs(a) + PendingJobs(b)
    decreases |a|
  {
    if |a| == 0 {
      assert a + b == b;
    } else {
      assert (a + b)[1..] == a[1..] + b;
      PendingJobsAppend(a[1..], b);
    }
  }

  lemma {:induction false} PendingJobsOfJobs(paths: seq<string>, localDir: string)
    ensures PendingJobs(JobsFor(paths, localDir)) == |paths|
    decreases |paths|
  {
    if |paths| > 0 {
      assert JobsFor(paths, localDir)[1..] == JobsFor(paths[1..], localDir);
      PendingJobsOfJobs(paths[1..], localDir);
    }
  }

  /** The accounting that makes the progress display meaningful: every
      admitted file is completed, waiting in the queue or being transferred,
      so these never add up to more than `total`, except for the `open`
      admissions whose task is already queued but not yet counted. */
  ghost predicate AccountedWithin(c: Crawl, open: nat) {
    && Consistent(c.stats)
    && c.stats.completed + PendingJobs(c.queue) + |c.stats.downloading| <= c.stats.total + open
  }

  /** The accounting when no admission is half done. */
  ghost predicate Accounted(c: Crawl) {
    AccountedWithin(c, 0)
  }

  /** Putting a task on the queue opens one admission window. */
  lemma EnqueueOpensWindow(c: Crawl, open: nat, remote: string, local: string)
    requires AccountedWithin(c, open)
    ensures AccountedWithin(Enqueue(c, remote, local), open + 1)
  {
    PendingJobsAppend(c.queue, [Job(Task(remote, local))]);
    assert PendingJobs([Job(Task(remote, local))]) == 1;
  }

  /** Counting the admitted file closes it again. */
  lemma CountClosesWindow(c: Crawl, open: nat, remote: string, size: Option<int>)
    requires AccountedWithin(c, open + 1)
    ensures AccountedWithin(CountAdmitted(c, remote, size), open)
  {
  }

  /** A scanner pass keeps the accounting. */
  lemma ScanDirKeepsAccounted(c: Crawl, current: string, listing: Option<seq<DirEntry>>,
                              localDir: string, present: string -> bool)
    requires Accounted(c)
    ensures Accounted(ScanDir(c, current, listing, localDir, present))
  {
    var r := ScanDir(c, current, listing, localDir, present);
    var added := r.fileList[|c.fileList|..];
    PendingJobsAppend(c.queue, JobsFor(added, localDir));
    PendingJobsOfJobs(added, localDir);
    AdmitAllKeepsDisjoint(c, current, listing, localDir, present);
  }

  /** Files found locally by a scanner are never ones a worker holds, so
      claimed and done stay disjoint. */
  lemma AdmitAllKeepsDisjoint(c: Crawl, current: string, listing: Option<seq<DirEntry>>,
                              localDir: string, present: string -> bool)
    requires c.stats.downloading !! c.stats.downloaded
    ensures var r := ScanDir(c, current, listing, localDir, present);
            r.stats.downloading !! r.stats.downloaded
  {
    if current !in c.scannedDirs && listing.Some? {
      var c1 := c.(scannedDirs := c.scannedDirs + {current});
      AdmitAllDisjoint(c1, FilesOf(Absolute(current), listing.value), localDir, present);
    }
  }

  lemma {:induction false} AdmitAllDisjoint(c: Crawl, files: seq<(string, Option<int>)>,
                                            localDir: string, present: string -> bool)
    requires c.stats.downloading !! c.stats.downloaded
    ensures var r := AdmitAll(c, files, localDir, present);
            r.stats.downloading !! r.stats.downloaded
    decreases |files|
  {
    if |files| > 0 {
      var c1 := AdmitFile(c, files[0].0, files[0].1, localDir, present);
      assert c1.stats.downloading !! c1.stats.downloaded;
      AdmitAllDisjoint(c1, files[1..], localDir, present);
    }
  }

  /** What a worker's pass over the front of the download queue leaves: the
      new state, the task it now holds (if it claimed one), and whether it
      took a pill and stops. */
  datatype Step = Step(crawl: Crawl, holding: Option<Task>, stop: bool)

  /** A worker takes the front item: a pill stops it, a task goes through
      `Registry.Take`. On an empty queue the worker's wait times out and
      nothing changes. */
  function WorkerTake(c: Crawl, present: string -> bool): (r: Step)
    ensures |c.queue| == 0 ==> r == Step(c, None, false)
    ensures |c.queue| > 0 ==> r.crawl.queue == c.queue[1..]
    ensures r.stop <==> |c.queue| > 0 && c.queue[0].Pill?
    ensures |c.queue| > 0 && c.queue[0].Pill? ==> r == Step(c.(queue := c.queue[1..]), None, true)
    ensures r.holding.Some? ==>
              && |c.queue| > 0 && c.queue[0] == Job(r.holding.value)
              && r.holding.value.remote !in c.stats.downloading
              && r.crawl.stats.downloading == c.stats.downloading + {r.holding.value.remote}
    ensures r.crawl.fileList == c.fileList && r.crawl.scannedDirs == c.scannedDirs
            && r.crawl.dirQueue == c.dirQueue
    ensures r.crawl.stats.total == c.stats.total
    ensures |c.queue| > 0 && c.queue[0].Job? ==>
              var t := c.queue[0].task;
              var taken := Take(c.stats, t, present(t.local));
              && r.crawl.stats == taken.stats
              && (r.holding.Some? <==> taken.claimed)
              && !r.stop
    ensures |c.queue| > 0 && c.queue[0].Job? && !present(c.queue[0].task.local)
            && c.queue[0].task.remote !in c.stats.downloaded
            && c.queue[0].task.remote !in c.stats.downloading
            ==> r.holding == Some(c.queue[0].task)
  {
    if |c.queue| == 0 then Step(c, None, false)
    else
      match c.queue[0]
      case Pill => Step(c.(queue := c.queue[1..]), None, true)
      case Job(t) =>
        var taken := Take(c.stats, t, present(t.local));
        Step(c.(queue := c.queue[1..], stats := taken.stats),
             if taken.claimed then Some(t) else None, false)
  }

  /** A worker records the outcome of the transfer it holds. */
  function WorkerFinish(c: Crawl, p: string, o: Outcome): (r: Crawl)
    ensures r.stats == Finish(c.stats, p, o) && r.(stats := c.stats) == c
    ensures r.stats.completed == c.stats.completed + 1
    ensures Succeeded(o) ==> r.stats.success == c.stats.success + 1 && p in r.stats.downloaded
    ensures !Succeeded(o) ==> r.stats.failed == c.stats.failed + 1
                              && r.stats.errors == c.stats.errors + [ErrorEntry(p, o.msg)]
    ensures p !in r.stats.downloading
    ensures r.queue == c.queue && r.fileList == c.fileList
  {
    c.(stats := Finish(c.stats, p, o))
  }

  /** Taking an item keeps the accounting, provided that a task whose local
      file is already there is not also being transferred by another
      worker. */
  lemma WorkerTakeKeepsAccounted(c: Crawl, open: nat, present: string -> bool)
    requires AccountedWithin(c, open)
    requires |c.queue| > 0 && c.queue[0].Job? && present(c.queue[0].task.local)
             ==> c.queue[0].task.remote !in c.stats.downloading
    ensures AccountedWithin(WorkerTake(c, present).crawl, open)
  {
    if |c.queue| > 0 {
      assert c.queue == [c.queue[0]] + c.queue[1..];
      PendingJobsAppend([c.queue[0]], c.queue[1..]);
      if c.queue[0].Job? {
        var t := c.queue[0].task;
        TakeKeepsConsistent(c.stats, t, present(t.local));
      }
    }
  }

  /** Recording the outcome of a held transfer keeps the accounting. */
  lemma WorkerFinishKeepsAccounted(c: Crawl, open: nat, p: string, o: Outcome)
    requires AccountedWithin(c, open) && p in c.stats.downloading
    ensures AccountedWithin(WorkerFinish(c, p, o), open)
  {
    FinishKeepsConsistent(c.stats, p, o);
  }

  /** Under the accounting, `completed` reaching a positive `total` means no
      task is waiting and no transfer is running. */
  lemma CompleteMeansIdle(c: Crawl)
    requires Accounted(c)
    requires c.stats.completed >= c.stats.total
    ensures PendingJobs(c.queue) == 0 && c.stats.downloading == {}
    ensures c.stats.completed == c.stats.total
  {
  }

  /** Session start: counters, log and expected bytes are reset, the scanned
      directories forgotten and the directory queue holds only the remote
      base. The path sets, the file list and the download queue carry over
      from the previous session. */
  function StartSession(c: Crawl, remoteBase: string): (r: Crawl)
    ensures Consistent(r.stats) <==> c.stats.downloading !! c.stats.downloaded
    ensures r.stats.total == 0 && r.stats.completed == 0 && r.stats.errors == []
    ensures r.dirQueue == [remoteBase] && r.scannedDirs == {}
    ensures r.fileList == c.fileList && r.queue == c.queue
    ensures r.stats.downloaded == c.stats.downloaded && r.stats.downloading == c.stats.downloading
    ensures r.stats.bytesExpected == 0 && r.stats.queuedFiles == 0
    ensures r.stats.success == 0 && r.stats.failed == 0
  {
    c.(stats := c.stats.(total := 0, completed := 0, success := 0, failed := 0,
                         errors := [], bytesExpected := 0, queuedFiles := 0),
       scannedDirs := {}, dirQueue := [remoteBase])
  }

  /** A new session starts accounted exactly when nothing is left over from
      the previous one: no task in the download queue and no transfer
      running. */
  lemma StartSessionAccounted(c: Crawl, remoteBase: string)
    requires c.stats.downloading !! c.stats.downloaded
    ensures Accounted(StartSession(c, remoteBase))
            <==> PendingJobs(c.queue) == 0 && c.stats.downloading == {}
  {
  }

  /** Paths listed in an earlier session stay in the file list, so a new
      session's scanners never admit them again, even when their local copy
      is missing. */
  lemma ListedPathsStayExcluded(c: Crawl, remoteBase: string, remote: string, size: Option<int>,
                                localDir: string, present: string -> bool)
    requires remote in c.fileList
    ensures var s := StartSession(c, remoteBase);
            AdmitFile(s, remote, size, localDir, present) == s
  {
  }
}

=== FILE: lifecycle.dfy ===
/** How the scanner threads end a discovery phase. The as-written protocol
    keeps one shared counter: a scanner adds one after connecting, and a
    scanner that leaves subtracts one. Leaving happens either when the
    directory queue is empty and the counter is at most one, or from the
    exception handler. The scanner that brings the counter to zero marks
    discovery done and puts one pill per download worker on the download
    queue. The corrected protocol below counts live and busy scanners
    instead. */
module Lifecycle {
  import opened Optional

  /** The settings' initial values: four scanners and four download workers
      (each adjustable, scanners from 1 to 10, workers from 1 to 20). */
  const DefaultScanners: nat := 4
  const DefaultWorkers: nat := 4

  /** Scanner bookkeeping as written. */
  datatype Scanners = Scanners(count: int, done: bool, pills: nat)

  /** The state at the start of a session. */
  function Initial(): (s: Scanners)
    ensures s.count == 0 && !s.done && s.pills == 0
  {
    Scanners(0, false, 0)
  }

  /** A scanner that has connected. */
  function Connected(s: Scanners): (r: Scanners)
    ensures r.count == s.count + 1 && r.done == s.done && r.pills == s.pills
  {
    s.(count := s.count + 1)
  }

  /** A scanner leaves, by exiting its loop or through the exception
      handler: the one that brings the counter to zero signals the end of
      discovery with one pill per worker. */
  function Leave(s: Scanners, workers: nat): (r: Scanners)
    ensures r.count == s.count - 1
    ensures r.done <==> s.done || s.count == 1
    ensures r.pills == s.pills + (if s.count == 1 then workers else 0)
  {
    if s.count - 1 == 0 then Scanners(0, true, s.pills + workers)
    else s.(count := s.count - 1)
  }

  /** The check an idle scanner makes when its wait on the directory queue
      times out: it leaves only when the queue is empty and the counter is
      at most one. */
  function TryExit(s: Scanners, queueEmpty: bool, workers: nat): (r: Option<Scanners>)
    ensures r.Some? <==> queueEmpty && s.count <= 1
    ensures r.Some? ==> r.value == Leave(s, workers)
  {
    if queueEmpty && s.count <= 1 then Some(Leave(s, workers)) else None
  }

  /** A scanner whose connection attempt fails goes through the same
      exception handler as a scanner that fails later, although it never
      added itself to the counter. */
  function ConnectFailed(s: Scanners, workers: nat): (r: Scanners)
    ensures r.count == s.count - 1
    ensures r.done <==> s.done || s.count == 1
  {
    Leave(s, workers)
  }

  /** Idle scanners checking for the end one after another, each observation
      saying whether the directory queue was empty; a disabled check changes
      nothing. */
  function ExitChecks(s: Scanners, observations: seq<bool>, workers: nat): (r: Scanners)
    ensures r.count <= s.count
    decreases |observations|
  {
    if |observations| == 0 then s
    else
      match TryExit(s, observations[0], workers)
      case None => ExitChecks(s, observations[1..], workers)
      case Some(next) => ExitChecks(next, observations[1..], workers)
  }

  /** The single step behind the exit problem: while two scanners are
      counted, the exit check is refused whatever the queue shows. */
  lemma ExitRefusedWhileTwoCounted(s: Scanners, queueEmpty: bool, workers: nat)
    requires s.count >= 2
    ensures TryExit(s, queueEmpty, workers).None?
  {
  }

  /** With two or more scanners connected, no exit check is ever enabled:
      the counter never reaches zero this way, discovery is never marked
      done and no pill is sent. */
  lemma {:induction false} NoExitWithTwoConnected(s: Scanners, observations: seq<bool>, workers: nat)
    requires s.count >= 2
    ensures ExitChecks(s, observations, workers) == s
    decreases |observations|
  {
    if |observations| > 0 {
      NoExitWithTwoConnected(s, observations[1..], workers);
    }
  }

  /** The state once `k` scanners have connected and none has left. */
  function ConnectAll(k: nat): (s: Scanners)
    ensures s == Scanners(k, false, 0)
  {
    if k == 0 then Initial() else Connected(ConnectAll(k - 1))
  }

  /** With the default settings and every scanner connected, discovery
      never ends through the exit checks, whatever the directory queue
      shows. */
  lemma DefaultSessionNeverSignals(observations: seq<bool>)
    ensures var r := ExitChecks(ConnectAll(DefaultScanners), observations, DefaultWorkers);
            !r.done && r.pills == 0
  {
    NoExitWithTwoConnected(ConnectAll(DefaultScanners), observations, DefaultWorkers);
  }

  /** One scanner is connected and scanning when a second scanner's
      connection fails: the counter drops to zero, discovery is marked done
      and the workers get their pills while the first scanner may still be
      adding files. */
  lemma FailedConnectSignalsEarly()
    ensures var scanning := Connected(Initial());
            var r := ConnectFailed(scanning, DefaultWorkers);
            r.done && r.pills == DefaultWorkers && r.count == 0
  {
  }

  /** When every scanner fails to connect, the counter goes negative and
      discovery is never marked done. */
  lemma AllConnectsFailedNeverSignals()
    ensures var r := ConnectFailed(ConnectFailed(ConnectFailed(ConnectFailed(Initial(),
                       DefaultWorkers), DefaultWorkers), DefaultWorkers), DefaultWorkers);
            !r.done && r.count == -4
  {
  }

  /** Corrected bookkeeping: `alive` scanners have not yet left (whether
      connected or not), `busy` of them are scanning a directory. */
  datatype Team = Team(alive: nat, busy: nat, done: bool, pills: nat)

  /** What the corrected bookkeeping maintains: busy scanners are alive,
      discovery is done exactly when no scanner is left, and then exactly
      one pill per worker has been sent. */
  ghost predicate TeamInv(t: Team, workers: nat) {
    && t.busy <= t.alive
    && (t.done <==> t.alive == 0)
    && t.pills == (if t.done then workers else 0)
  }

  function Launch(scanners: nat): (t: Team)
    requires scanners >= 1
    ensures forall workers: nat :: TeamInv(t, workers)
    ensures t.alive == scanners && t.busy == 0
  {
    Team(scanners, 0, false, 0)
  }

  /** A scanner takes a directory from the queue. */
  function BeginDir(t: Team): (r: Team)
    requires t.busy < t.alive
    ensures r.busy == t.busy + 1 && r.alive == t.alive
  {
    t.(busy := t.busy + 1)
  }

  /** A scanner finishes a directory, having queued its subdirectories. */
  function EndDir(t: Team): (r: Team)
    requires t.busy > 0
    ensures r.busy == t.busy - 1 && r.alive == t.alive
  {
    t.(busy := t.busy - 1)
  }

  /** An idle scanner leaves: after its exit check, after a failed
      connection, or after an error outside a directory. The last one to
      leave signals the end of discovery. */
  function Retire(t: Team, workers: nat): (r: Team)
    requires t.busy < t.alive
    ensures r.alive == t.alive - 1 && r.busy == t.busy
    ensures r.done <==> t.done || t.alive == 1
    ensures r.pills == t.pills + (if t.alive == 1 then workers else 0)
  {
    if t.alive == 1 then Team(0, t.busy, true, t.pills + workers)
    else t.(alive := t.alive - 1)
  }

  /** The corrected exit check: no directory waits and no scanner is in the
      middle of one (only a busy scanner can add directories). */
  function TryRetire(t: Team, queueEmpty: bool, workers: nat): (r: Option<Team>)
    requires t.busy < t.alive
    ensures r.Some? <==> queueEmpty && t.busy == 0
    ensures r.Some? ==> r.value == Retire(t, workers)
  {
    if queueEmpty && t.busy == 0 then Some(Retire(t, workers)) else None
  }

  /** A scanner fails while scanning a directory and leaves. */
  function FailBusy(t: Team, workers: nat): (r: Team)
    requires 0 < t.busy <= t.alive
    ensures r.alive == t.alive - 1 && r.busy == t.busy - 1
  {
    Retire(EndDir(t), workers)
  }

  /** Every corrected transition keeps the invariant. */
  lemma TeamStepsKeepInv(t: Team, workers: nat, queueEmpty: bool)
    requires TeamInv(t, workers)
    ensures t.busy < t.alive ==> TeamInv(BeginDir(t), workers)
    ensures t.busy > 0 ==> TeamInv(EndDir(t), workers)
    ensures t.busy < t.alive ==> TeamInv(Retire(t, workers), workers)
    ensures 0 < t.busy <= t.alive ==> TeamInv(FailBusy(t, workers), workers)
  {
  }

  /** Discovery is signalled only when no scanner is scanning. */
  lemma DoneMeansNobodyScans(t: Team, workers: nat)
    requires TeamInv(t, workers) && t.done
    ensures t.busy == 0 && t.alive == 0 && t.pills == workers
  {
  }

  /** All remaining scanners idle on an empty queue, each making its exit
      check once. */
  function RetireAll(t: Team, workers: nat): (r: Team)
    requires t.busy == 0
    ensures r.alive == 0 && r.busy == 0
    decreases t.alive
  {
    if t.alive == 0 then t else RetireAll(Retire(t, workers), workers)
  }

  /** With the corrected check, scanners idling on an empty queue always end
      discovery: once every one has made its check, discovery is done and
      each worker has exactly one pill, whatever the number of scanners. */
  lemma {:induction false} IdleScannersFinish(t: Team, workers: nat)
    requires TeamInv(t, workers) && t.busy == 0
    ensures var r := RetireAll(t, workers);
            r.done && r.pills == workers && TeamInv(r, workers)
    decreases t.alive
  {
    if t.alive > 0 {
      var next := Retire(t, workers);
      assert TeamInv(next, workers);
      IdleScannersFinish(next, workers);
    }
  }

  /** A failed connection in the corrected protocol does not end discovery
      while another scanner is scanning. */
  lemma NoEarlySignal(t: Team, workers: nat)
    requires TeamInv(t, workers) && t.busy > 0 && t.busy < t.alive
    ensures !Retire(t, workers).done
  {
  }
}

=== FILE: listing.dfy ===
/** The last-resort reading of a Unix-style `LIST` reply line: at least nine
    whitespace-separated fields, the name is everything from the ninth field
    on, the entry is a directory when the permission field starts with 'd',
    and the size is the fifth field. */
module Listing {
  import opened Text
  import opened Optional

  datatype ListEntry = ListEntry(name: string, isDir: bool, size: string)

  /** Lines with fewer than nine fields are ignored. */
  function ParseListLine(line: string): (e: Option<ListEntry>)
    ensures e.Some? <==> |Split(line)| >= 9
    ensures e.Some? ==> |e.value.name| > 0 && |e.value.size| > 0 && NoSpace(e.value.size)
  {
    var parts := Split(line);
    if |parts| >= 9 then
      JoinNonEmpty(parts[8..]);
      Some(ListEntry(JoinSpaces(parts[8..]), StartsWith(parts[0], "d"), parts[4]))
    else
      None
  }

  lemma {:induction false} JoinNonEmpty(fields: seq<string>)
    requires |fields| > 0 && |fields[0]| > 0
    ensures |JoinSpaces(fields)| > 0
  {
  }

  lemma {:induction false} JoinSpacesAppend(a: seq<string>, b: seq<string>)
    requires |a| > 0 && |b| > 0
    ensures JoinSpaces(a + b) == JoinSpaces(a) + " " + JoinSpaces(b)
    decreases |a|
  {
    if |a| == 1 {
      assert (a + b)[1..] == b;
    } else {
      assert (a + b)[1..] == a[1..] + b;
      JoinSpacesAppend(a[1..], b);
    }
  }

  predicate IsField(f: string) {
    |f| > 0 && NoSpace(f)
  }

  /** A line made of eight metadata fields and a name whose words are
      separated by single spaces reads back as that name, that size and that
      directory flag. */
  lemma ListLineRoundTrip(meta: seq<string>, words: seq<string>)
    requires |meta| == 8 && |words| > 0
    requires forall i :: 0 <= i < |meta| ==> IsField(meta[i])
    requires forall i :: 0 <= i < |words| ==> IsField(words[i])
    ensures ParseListLine(JoinSpaces(meta) + " " + JoinSpaces(words))
            == Some(ListEntry(JoinSpaces(words), StartsWith(meta[0], "d"), meta[4]))
  {
    var fields := meta + words;
    JoinSpacesAppend(meta, words);
    SplitJoinSpaces(fields);
    assert fields[8..] == words;
  }

  /** Whatever the spacing inside the reply line, the name the parser
      returns is its words joined by single spaces: runs of blanks inside a
      name, and blanks around it, are not preserved. */
  lemma ParsedNameIsNormalised(line: string)
    requires ParseListLine(line).Some?
    ensures var name := ParseListLine(line).value.name;
            Split(name) == Split(line)[8..] && JoinSpaces(Split(name)) == name
  {
    SplitJoinSpaces(Split(line)[8..]);
  }
}

=== FILE: messages.dfy ===
/** Classification of the messages a failed transfer raises: the
    "disguised success" test a download worker applies to every transfer
    error, and the rewording of the last error of a file download into one of
    three user-facing categories. */
module Messages {
  import opened Text
  import opened Optional

  /** A transfer error whose text is really a success reply from the server
      ("200 TYPE is now 8-bit binary"): it mentions reply code 200 together
      with "TYPE" or "binary" in any letter case. */
  function IsDisguisedSuccess(msg: string): (ok: bool)
    ensures ok <==> Contains(msg, "200")
                    && (ContainsIgnoringCase(msg, "type") || ContainsIgnoringCase(msg, "binary"))
  {
    ContainsUpperIffIgnoringCase(msg, "type");
    ContainsLowerIffIgnoringCase(msg, "binary");
    assert Upper("type") == "TYPE";
    assert Lower("binary") == "binary";
    Contains(msg, "200") && (Contains(Upper(msg), "TYPE") || Contains(Lower(msg), "binary"))
  }

  /** The three categories a failed download is reported under. */
  datatype ErrorKind = NotFound | Interrupted | Generic

  /** Categories are tried in priority order: a missing file (reply 550 or
      the words "not found" / "No such file") wins over an interrupted data
      connection (reply 150), which wins over everything else. */
  function Classify(msg: string): (k: ErrorKind)
    ensures k == NotFound <==>
              Contains(msg, "550") || ContainsIgnoringCase(msg, "not found")
              || Contains(msg, "No such file")
    ensures k == Interrupted <==>
              !Contains(msg, "550") && !ContainsIgnoringCase(msg, "not found")
              && !Contains(msg, "No such file") && Contains(msg, "150")
  {
    ContainsLowerIffIgnoringCase(msg, "not found");
    assert Lower("not found") == "not found";
    if Contains(msg, "550") || Contains(Lower(msg), "not found") || Contains(msg, "No such file") then
      NotFound
    else if Contains(msg, "150") then
      Interrupted
    else
      Generic
  }

  function Prefix(k: ErrorKind): string {
    match k
    case NotFound => "File not found: "
    case Interrupted => "Connection timeout or interrupted: "
    case Generic => "FTP error: "
  }

  /** The message a download raises after its last attempt failed. */
  function Rewrap(msg: string): (r: string)
    ensures StartsWith(r, Prefix(Classify(msg)))
    ensures |r| == |Prefix(Classify(msg))| + |msg|
  {
    Prefix(Classify(msg)) + msg
  }

  /** Recovers the category and the original text from a reworded message. */
  function Unwrap(s: string): (r: Option<(ErrorKind, string)>)
    ensures r.Some? ==> StartsWith(s, Prefix(r.value.0))
  {
    if StartsWith(s, Prefix(NotFound)) then Some((NotFound, s[|Prefix(NotFound)|..]))
    else if StartsWith(s, Prefix(Interrupted)) then Some((Interrupted, s[|Prefix(Interrupted)|..]))
    else if StartsWith(s, Prefix(Generic)) then Some((Generic, s[|Prefix(Generic)|..]))
    else None
  }

  /** Rewording loses nothing: the category and the server's text can be read
      back from the raised message. */
  lemma UnwrapRewrap(msg: string)
    ensures Unwrap(Rewrap(msg)) == Some((Classify(msg), msg))
  {
    UnwrapPrefixed(Classify(msg), msg);
  }

  lemma UnwrapPrefixed(k: ErrorKind, m: string)
    ensures Unwrap(Prefix(k) + m) == Some((k, m))
  {
    var p := Prefix(k);
    var r := p + m;
    assert r[..|p|] == p;
    assert r[|p|..] == m;
    match k
    case NotFound =>
    case Interrupted =>
      assert r[0] == p[0];
      DifferAt(r, Prefix(NotFound), 0);
    case Generic =>
      assert r[0] == p[0] && r[1] == p[1];
      DifferAt(r, Prefix(NotFound), 1);
      DifferAt(r, Prefix(Interrupted), 0);
  }

  lemma DifferAt(s: string, w: string, i: nat)
    requires i < |w| && i < |s| && s[i] != w[i]
    ensures !StartsWith(s, w)
  {
    if |w| <= |s| {
      assert s[..|w|][i] == s[i];
    }
  }

  /** Every character of a contained word occurs in the containing string. */
  lemma {:induction false} ContainsKeepsChars(s: string, w: string, ch: char)
    requires ch in w
    ensures Contains(s, w) ==> ch in s
    decreases |s|
  {
    var i :| 0 <= i < |w| && w[i] == ch;
    if StartsWith(s, w) {
      assert s[i] == ch;
    } else if |s| > 0 {
      ContainsKeepsChars(s[1..], w, ch);
    }
  }

  /** A prefix that ends in a space and lacks a character of a space-free
      word does not change whether the word occurs. */
  lemma PrefixTransparent(p: string, m: string, w: string, ch: char)
    requires |p| > 0 && p[|p| - 1] == ' ' && ' ' !in w
    requires ch in w && ch !in p
    ensures Contains(p + m, w) <==> Contains(m, w)
  {
    ContainsKeepsChars(p, w, ch);
    ContainsAcrossSeparator(p, m, w, ' ');
    if Contains(m, w) {
      ContainsSuffixMonotone(p, m, w);
    }
  }

  lemma UpperAppend(a: string, b: string)
    ensures Upper(a + b) == Upper(a) + Upper(b)
  {
  }

  lemma LowerAppend(a: string, b: string)
    ensures Lower(a + b) == Lower(a) + Lower(b)
  {
  }

  /** Facts about the three prefixes that keep them out of every match. */
  lemma PrefixShape(k: ErrorKind)
    ensures var p := Prefix(k);
            && |p| > 0 && p[|p| - 1] == ' ' && '2' !in p
            && Upper(p)[|p| - 1] == ' ' && 'Y' !in Upper(p)
            && Lower(p)[|p| - 1] == ' ' && 'b' !in Lower(p)
  {
    var p := Prefix(k);
    assert forall i :: 0 <= i < |p| ==> p[i] != 'y' && p[i] != 'Y' && p[i] != 'b' && p[i] != 'B';
  }

  /** Rewording never turns a real failure into a disguised success, nor the
      other way round: none of the three prefixes can take part in a match. */
  lemma DisguiseSurvivesRewrap(msg: string)
    ensures IsDisguisedSuccess(Rewrap(msg)) == IsDisguisedSuccess(msg)
  {
    var p := Prefix(Classify(msg));
    PrefixShape(Classify(msg));
    PrefixTransparent(p, msg, "200", '2');
    UpperAppend(p, msg);
    PrefixTransparent(Upper(p), Upper(msg), "TYPE", 'Y');
    LowerAppend(p, msg);
    PrefixTransparent(Lower(p), Lower(msg), "binary", 'b');
  }
}

=== FILE: numbers.dfy ===
/** Size parsing: a file size reaches the crawler as an integer, as a string
    (from a directory listing, or the placeholder "Unknown") or as some other
    value, and is turned into a byte count; text that is not a Python integer
    literal counts as zero bytes. */
module Numbers {
  import opened Text
  import opened Optional

  /** The dynamically typed size value the source hands to its size parser. */
  datatype SizeValue = IntSize(n: int) | StrSize(s: string) | OtherSize

  predicate IsDigit(c: char) {
    '0' <= c <= '9'
  }

  function DigitValue(c: char): nat
    requires IsDigit(c)
  {
    c as int - '0' as int
  }

  function DigitChar(d: nat): (c: char)
    requires d < 10
    ensures IsDigit(c) && DigitValue(c) == d
  {
    ('0' as int + d) as char
  }

  predicate AllDigits(s: string) {
    forall i :: 0 <= i < |s| ==> IsDigit(s[i])
  }

  /** The number a run of decimal digits denotes. */
  function Value(s: string): nat
    requires AllDigits(s)
  {
    if |s| == 0 then 0 else Value(s[..|s| - 1]) * 10 + DigitValue(s[|s| - 1])
  }

  /** Digits with single underscores between them, as Python's `int()`
      accepts them ("1_000"). */
  predicate IsDigitGroups(s: string) {
    && |s| > 0 && IsDigit(s[0]) && IsDigit(s[|s| - 1])
    && (forall i :: 0 <= i < |s| ==> IsDigit(s[i]) || s[i] == '_')
    && (forall i :: 0 <= i < |s| - 1 ==> s[i] == '_' ==> s[i + 1] != '_')
  }

  /** The digits of `s` with the underscores taken out. */
  function Digits(s: string): (d: string)
    requires forall i :: 0 <= i < |s| ==> IsDigit(s[i]) || s[i] == '_'
    ensures AllDigits(d)
  {
    if |s| == 0 then ""
    else if s[|s| - 1] == '_' then Digits(s[..|s| - 1])
    else Digits(s[..|s| - 1]) + [s[|s| - 1]]
  }

  function StripLeft(s: string): (r: string)
    ensures |r| <= |s| && r == s[|s| - |r|..]
    ensures |r| > 0 ==> !IsSpace(r[0])
  {
    if |s| > 0 && IsSpace(s[0]) then StripLeft(s[1..]) else s
  }

  function StripRight(s: string): (r: string)
    ensures |r| <= |s| && r == s[..|r|]
    ensures |r| > 0 ==> !IsSpace(r[|r| - 1])
  {
    if |s| > 0 && IsSpace(s[|s| - 1]) then StripRight(s[..|s| - 1]) else s
  }

  /** Python `s.strip()`. */
  function Strip(s: string): string {
    StripRight(StripLeft(s))
  }

  /** Python `int(s)` on a string: surrounding whitespace, an optional sign
      and underscore-grouped decimal digits; `None` where Python raises
      `ValueError`. */
  function PyInt(s: string): Option<int> {
    IntLiteral(Strip(s))
  }

  /** An optional sign followed by underscore-grouped decimal digits. */
  function IntLiteral(t: string): Option<int> {
    var signed := |t| > 0 && (t[0] == '+' || t[0] == '-');
    var body := if signed then t[1..] else t;
    if IsDigitGroups(body) then
      var n: int := Value(Digits(body));
      Some(if signed && t[0] == '-' then -n else n)
    else
      None
  }

  /** The source's size parser: integers pass through, "Unknown", the empty
      string and text that is not an integer literal give 0, strings that are
      integer literals give their value, and any other kind of value gives 0. */
  function ParseSize(v: SizeValue): (bytes: int)
    ensures v.IntSize? ==> bytes == v.n
    ensures v.OtherSize? ==> bytes == 0
    ensures v.StrSize? && PyInt(v.s).None? ==> bytes == 0
    ensures v.StrSize? && PyInt(v.s).Some? ==> bytes == PyInt(v.s).value
  {
    match v
    case IntSize(n) => n
    case StrSize(s) =>
      PlaceholdersAreNotIntegers();
      if s == "Unknown" || s == "" then 0
      else
        (match PyInt(s)
         case Some(n) => n
         case None => 0)
    case OtherSize => 0
  }

  lemma PlaceholdersAreNotIntegers()
    ensures PyInt("Unknown") == None && PyInt("") == None
  {
    var u := "Unknown";
    assert !IsSpace(u[0]) && !IsSpace(u[|u| - 1]);
    assert StripLeft(u) == u;
    assert StripRight(u) == u;
    assert !IsDigit(u[0]) && !IsDigit(u[1..][0]);
  }

  /** Python `str(n)` for a natural number. */
  function NatText(n: nat): (s: string)
    ensures |s| > 0 && AllDigits(s)
  {
    if n < 10 then [DigitChar(n)] else NatText(n / 10) + [DigitChar(n % 10)]
  }

  /** Python `str(n)` for an integer. */
  function IntText(n: int): string {
    if n < 0 then "-" + NatText(-n) else NatText(n)
  }

  lemma {:induction false} ValueOfNatText(n: nat)
    ensures Value(NatText(n)) == n
    decreases n
  {
    if n >= 10 {
      var s := NatText(n);
      assert s[..|s| - 1] == NatText(n / 10);
      ValueOfNatText(n / 10);
    }
  }

  lemma {:induction false} DigitsOfAllDigits(s: string)
    requires AllDigits(s)
    ensures Digits(s) == s
    decreases |s|
  {
    if |s| > 0 {
      DigitsOfAllDigits(s[..|s| - 1]);
    }
  }

  lemma StripOfNoSpaceEnds(s: string)
    requires |s| > 0 && !IsSpace(s[0]) && !IsSpace(s[|s| - 1])
    ensures Strip(s) == s
  {
  }

  /** Whitespace around a number does not change it. */
  lemma {:induction false} StripPadding(a: string, x: string, b: string)
    requires NoSpace(x) && |x| > 0
    requires forall i :: 0 <= i < |a| ==> IsSpace(a[i])
    requires forall i :: 0 <= i < |b| ==> IsSpace(b[i])
    ensures Strip(a + x + b) == x
  {
    assert a + x + b == a + (x + b);
    StripLeftPadding(a, x + b);
    StripRightPadding(x, b);
  }

  lemma {:induction false} StripLeftPadding(a: string, y: string)
    requires forall i :: 0 <= i < |a| ==> IsSpace(a[i])
    requires |y| > 0 && !IsSpace(y[0])
    ensures StripLeft(a + y) == y
    decreases |a|
  {
    if |a| > 0 {
      assert (a + y)[1..] == a[1..] + y;
      StripLeftPadding(a[1..], y);
    } else {
      assert a + y == y;
    }
  }

  lemma {:induction false} StripRightPadding(x: string, b: string)
    requires forall i :: 0 <= i < |b| ==> IsSpace(b[i])
    requires |x| > 0 && !IsSpace(x[|x| - 1])
    ensures StripRight(x + b) == x
    decreases |b|
  {
    if |b| > 0 {
      assert (x + b)[..|x + b| - 1] == x + b[..|b| - 1];
      StripRightPadding(x, b[..|b| - 1]);
    } else {
      assert x + b == x;
    }
  }

  lemma {:induction false} IntLiteralOfIntText(n: int)
    ensures IntLiteral(IntText(n)) == Some(n)
  {
    var m: nat := if n < 0 then -n else n;
    var digits := NatText(m);
    var t := IntText(n);
    DigitsOfAllDigits(digits);
    ValueOfNatText(m);
    assert IsDigitGroups(digits);
    if n < 0 {
      assert t[1..] == digits;
    } else {
      assert IsDigit(t[0]);
    }
  }

  /** Python's `int()` reads back what `str()` wrote, whatever whitespace
      surrounds it. */
  lemma PyIntOfIntText(n: int, a: string, b: string)
    requires forall i :: 0 <= i < |a| ==> IsSpace(a[i])
    requires forall i :: 0 <= i < |b| ==> IsSpace(b[i])
    ensures PyInt(a + IntText(n) + b) == Some(n)
  {
    assert NoSpace(IntText(n));
    StripPadding(a, IntText(n), b);
    IntLiteralOfIntText(n);
  }

  /** Sizes written by Python's `str` parse back to themselves, whatever
      whitespace surrounds them. */
  lemma SizeTextRoundTrip(n: int, a: string, b: string)
    requires forall i :: 0 <= i < |a| ==> IsSpace(a[i])
    requires forall i :: 0 <= i < |b| ==> IsSpace(b[i])
    ensures ParseSize(StrSize(a + IntText(n) + b)) == n
  {
    PyIntOfIntText(n, a, b);
  }

  /** The special case for "Unknown" and "" in the source only restates what
      the integer parse already gives. */
  lemma PlaceholderIsRedundant(s: string)
    ensures ParseSize(StrSize(s)) == PyInt(s).GetOr(0)
  {
  }
}

=== FILE: option.dfy ===
/** The optional value used wherever the source returns `None` or swallows an
    exception. */
module Optional {
  datatype Option<T> = None | Some(value: T) {
    function GetOr(default: T): T {
      match this
      case Some(v) => v
      case None => default
    }
  }
}

=== FILE: paths.dfy ===
/** Remote and local path arithmetic: the absolute form of a directory, the
    path of a directory entry, the two spellings a download tries, and the
    local destination that mirrors the remote tree under the local root
    (POSIX `os.path.join` semantics). */
module Paths {
  import opened Text

  /** A path made absolute by prefixing '/' when it lacks one; used for the
      directory a scanner lists and for the first spelling a download
      tries. */
  function Absolute(p: string): (r: string)
    ensures StartsWith(r, "/")
    ensures StartsWith(p, "/") ==> r == p
    ensures !StartsWith(p, "/") ==> r == "/" + p
  {
    if StartsWith(p, "/") then p else "/" + p
  }

  /** The second spelling a download tries: every leading '/' removed. */
  function Relative(p: string): (r: string)
    ensures !StartsWith(r, "/")
    ensures |r| <= |p| && r == p[|p| - |r|..]
    ensures forall i :: 0 <= i < |p| - |r| ==> p[i] == '/'
  {
    LStrip(p, '/')
  }

  /** With at most one leading '/', the two spellings name the same path. */
  lemma SpellingsAgree(p: string)
    requires !StartsWith(p, "//")
    ensures "/" + Relative(p) == Absolute(p)
  {
    if |p| > 0 && p[0] == '/' {
      assert p[..1] == "/";
      if |p| > 1 {
        assert p[..2] != "//";
      }
      assert LStrip(p[1..], '/') == p[1..];
      assert "/" + p[1..] == p;
    } else {
      assert LStrip(p, '/') == p;
    }
  }

  /** The path of entry `name` of directory `current`: "/" + name for the
      root, otherwise `current` without trailing slashes, a slash and the
      name; every backslash then becomes a slash. */
  function ChildPath(current: string, name: string): (r: string)
    ensures '\\' !in r
    ensures StartsWith(current, "/") ==> StartsWith(r, "/")
  {
    var joined := if current == "/" then "/" + name else RStrip(current, '/') + "/" + name;
    var r := ReplaceChar(joined, '\\', '/');
    assert StartsWith(current, "/") ==> joined[0] == '/' by {
      if StartsWith(current, "/") && current != "/" {
        var stem := RStrip(current, '/');
        if |stem| > 0 {
          assert stem[0] == current[0];
        }
      }
    }
    r
  }

  /** The special case for the root directory agrees with the general
      formula, since stripping the trailing slashes of "/" leaves "". */
  lemma RootCaseIsGeneralCase(name: string)
    ensures ChildPath("/", name) == ReplaceChar(RStrip("/", '/') + "/" + name, '\\', '/')
  {
    assert RStrip("/", '/') == RStrip("", '/') == "";
  }

  /** The index of the last slash, or -1 when there is none. */
  function LastSlash(p: string): (i: int)
    ensures -1 <= i < |p|
    ensures i >= 0 ==> p[i] == '/'
    ensures forall j :: i < j < |p| ==> p[j] != '/'
    decreases |p|
  {
    if |p| == 0 then -1
    else if p[|p| - 1] == '/' then |p| - 1
    else LastSlash(p[..|p| - 1])
  }

  /** posixpath.basename: the text after the last slash. */
  function BaseName(p: string): (b: string)
    ensures |b| <= |p| && b == p[|p| - |b|..]
    ensures '/' !in b
    ensures |b| < |p| ==> p[|p| - |b| - 1] == '/'
  {
    p[LastSlash(p) + 1..]
  }

  /** Everything up to and including the last slash. */
  function DirPart(p: string): string {
    p[..|p| - |BaseName(p)|]
  }

  lemma BaseNameOfAppend(d: string, name: string)
    requires '/' !in name
    requires |d| > 0 && d[|d| - 1] == '/'
    ensures BaseName(d + name) == name
  {
    var p := d + name;
    assert p[|d| - 1] == '/';
    assert forall j :: |d| <= j < |p| ==> p[j] == name[j - |d|];
    assert LastSlash(p) == |d| - 1;
    assert p[|d|..] == name;
  }

  /** An entry path splits back into its directory and the entry's name,
      when neither contains a backslash and the name contains no slash. */
  lemma ChildPathSplits(current: string, name: string)
    requires '\\' !in current && '\\' !in name && '/' !in name
    ensures BaseName(ChildPath(current, name)) == name
    ensures DirPart(ChildPath(current, name)) == RStrip(current, '/') + "/"
  {
    RootCaseIsGeneralCase(name);
    var d := RStrip(current, '/') + "/";
    var p := d + name;
    assert p == RStrip(current, '/') + "/" + name;
    assert '\\' !in p;
    ReplaceCharAbsent(p, '\\', '/');
    assert ChildPath(current, name) == p;
    BaseNameOfAppend(d, name);
    assert p[..|d|] == d;
  }

  /** The remote path relative to the remote root: exactly one leading
      slash dropped. */
  function LocalRelative(remote: string): (r: string)
    ensures StartsWith(remote, "/") ==> "/" + r == remote
    ensures !StartsWith(remote, "/") ==> r == remote
  {
    if StartsWith(remote, "/") then remote[1..] else remote
  }

  /** Dropping one slash and dropping all leading slashes agree exactly on
      paths that do not start with "//". */
  lemma LocalRelativeVersusStrip(remote: string)
    ensures LocalRelative(remote) == Relative(remote) <==> !StartsWith(remote, "//")
  {
    StartsWithOne(remote, '/');
    StartsWithTwo(remote, '/', '/');
    if |remote| > 1 && remote[0] == '/' && remote[1] == '/' {
      StartsWithOne(LocalRelative(remote), '/');
      StartsWithOne(Relative(remote), '/');
    } else if |remote| > 0 && remote[0] == '/' {
      var rest := remote[1..];
      assert LStrip(remote, '/') == LStrip(rest, '/');
      assert LStrip(rest, '/') == rest;
    } else {
      assert LStrip(remote, '/') == remote;
    }
  }

  /** POSIX `os.path.join(a, b)`: an absolute `b` replaces `a`. */
  function JoinPath(a: string, b: string): (r: string)
    ensures StartsWith(b, "/") ==> r == b
  {
    if StartsWith(b, "/") then b
    else if a == "" || a[|a| - 1] == '/' then a + b
    else a + "/" + b
  }

  /** The local destination of a remote file. */
  function LocalPath(localDir: string, remote: string): (r: string)
    ensures !StartsWith(LocalRelative(remote), "/") ==> StartsWith(r, localDir)
    ensures StartsWith(LocalRelative(remote), "/") ==> r == LocalRelative(remote)
  {
    var rel := LocalRelative(remote);
    assert !StartsWith(rel, "/") ==> (localDir + "/" + rel)[..|localDir|] == localDir;
    assert !StartsWith(rel, "/") ==> (localDir + rel)[..|localDir|] == localDir;
    JoinPath(localDir, rel)
  }

  /** A remote path with at most one leading slash lands under the local
      root, with its relative part appended after one separator. */
  lemma LocalPathUnderRoot(localDir: string, remote: string)
    requires localDir != "" && localDir[|localDir| - 1] != '/'
    requires !StartsWith(remote, "//")
    ensures LocalPath(localDir, remote) == localDir + "/" + LocalRelative(remote)
  {
    var rel := LocalRelative(remote);
    if StartsWith(remote, "/") && |remote| > 1 {
      assert remote[..2] != "//";
      assert rel[0] == remote[1];
    }
  }

  /** A remote path starting with "//" keeps an absolute relative part, and
      the local root is discarded. */
  lemma DoubleSlashLeavesRoot(localDir: string, remote: string)
    requires StartsWith(remote, "//")
    ensures LocalPath(localDir, remote) == remote[1..]
  {
    StartsWithTwo(remote, '/', '/');
    StartsWithOne(remote, '/');
    StartsWithOne(remote[1..], '/');
  }

  /** A file in the root directory whose name starts with a backslash gets a
      remote path starting with "//", so its local destination is an absolute
      path outside the local root. */
  lemma BackslashNameLeavesRoot(localDir: string, name: string)
    requires |name| > 0 && name[0] == '\\'
    ensures var remote := ChildPath("/", name);
            StartsWith(remote[1..], "/") && LocalPath(localDir, remote) == remote[1..]
  {
    var remote := ChildPath("/", name);
    assert remote[0] == '/' && remote[1] == '/';
    StartsWithTwo(remote, '/', '/');
    StartsWithOne(remote[1..], '/');
    DoubleSlashLeavesRoot(localDir, remote);
  }
}

=== FILE: progress.dfy ===
/** The progress display's arithmetic: the "Pending" figure, the test that
    ends a session, and the debounced completion test of the earlier (and
    shadowed) definition of the progress loop. */
module Progress {
  import opened Registry
  import opened Crawler
  import opened Optional

  /** The "Pending" figure as written: failures are subtracted on top of
      `completed`, which already counts them. */
  function PendingAsWritten(s: Stats): (n: nat)
    ensures Consistent(s) ==> n == ClampAtZero(s.total - s.success - 2 * s.failed)
  {
    ClampAtZero(s.total - s.completed - s.failed)
  }

  /** The "Pending" figure as intended: admitted files not yet completed. */
  function Pending(s: Stats): (n: nat)
    ensures Consistent(s) && s.completed <= s.total ==> n + s.success + s.failed == s.total
  {
    ClampAtZero(s.total - s.completed)
  }

  /** Under the accounting, the corrected figure covers every file that is
      waiting in the download queue or being transferred. */
  lemma PendingCoversOutstanding(c: Crawl)
    requires Accounted(c)
    ensures Pending(c.stats) >= PendingJobs(c.queue) + |c.stats.downloading|
  {
  }

  /** Whenever a file has failed and not all are done, the figure as
      written is smaller than the files actually left; for ten files with
      three successes and two failures it shows 3 instead of 5. */
  lemma PendingAsWrittenUndercounts(s: Stats)
    requires Consistent(s) && s.failed > 0 && s.completed < s.total
    ensures PendingAsWritten(s) < Pending(s)
    ensures var t := Stats({}, {}, 10, 5, 3, 2, [], 0, 10);
            PendingAsWritten(t) == 3 && Pending(t) == 5
  {
  }

  /** The test that ends a session: at least one file was admitted and
      `completed` has reached `total`, that is, nothing is pending. */
  predicate SessionComplete(s: Stats): (b: bool)
    ensures b <==> s.total > 0 && Pending(s) == 0
  {
    s.completed >= s.total && s.total > 0
  }

  /** Under the accounting, the end-of-session test fires only when no file
      is waiting or being transferred. */
  lemma CompleteLeavesNothingOutstanding(c: Crawl)
    requires Accounted(c) && SessionComplete(c.stats)
    ensures PendingJobs(c.queue) == 0 && c.stats.downloading == {}
  {
    CompleteMeansIdle(c);
  }

  /** The test does not look at discovery: with one file admitted and done
      and a directory still waiting to be scanned, the session is already
      declared complete. */
  lemma CompleteIgnoresDiscovery()
    ensures var c := Crawl(Stats({"/a"}, {}, 1, 1, 1, 0, [], 0, 1), [], ["/a"], {"/"}, ["/sub"]);
            Accounted(c) && SessionComplete(c.stats) && |c.dirQueue| > 0
  {
    var c := Crawl(Stats({"/a"}, {}, 1, 1, 1, 0, [], 0, 1), [], ["/a"], {"/"}, ["/sub"]);
    assert PendingJobs(c.queue) == 0;
  }

  /** A scanner has put a second file on the queue but not yet counted it
      when a worker takes it: `completed` still equals `total`, so the
      session is declared complete with that file in flight. Once the
      scanner counts it, the accounting holds again and the test fails. */
  lemma CompletionInsideAdmissionWindow()
    ensures var c0 := Crawl(Stats({"/a"}, {}, 1, 1, 1, 0, [], 0, 1), [], ["/a"], {"/"}, []);
            var c1 := Enqueue(c0, "/b", "dl/b");
            var c2 := WorkerTake(c1, (l: string) => false).crawl;
            var c3 := CountAdmitted(c2, "/b", None);
            && Accounted(c0) && AccountedWithin(c2, 1) && !Accounted(c2)
            && SessionComplete(c2.stats) && "/b" in c2.stats.downloading
            && Accounted(c3) && !SessionComplete(c3.stats)
  {
    var c0 := Crawl(Stats({"/a"}, {}, 1, 1, 1, 0, [], 0, 1), [], ["/a"], {"/"}, []);
    var c1 := Enqueue(c0, "/b", "dl/b");
    assert PendingJobs(c1.queue) == 1 by {
      assert c1.queue[1..] == [];
    }
    var c2 := WorkerTake(c1, (l: string) => false).crawl;
    assert c2.queue == [] && c2.stats.downloading == {"/b"};
  }

  /** The observations of the earlier progress loop's completion test. */
  datatype Observation = Observation(
    scannerDone: bool,
    queueEmpty: bool,
    queueSize: nat,
    workersDone: bool,
    downloadingCount: nat,
    total: nat,
    completed: nat
  )

  /** Every condition of the earlier completion test holds. */
  predicate AllQuiet(o: Observation) {
    && o.scannerDone && o.queueEmpty && o.queueSize == 0 && o.workersDone
    && o.downloadingCount == 0 && o.total > 0 && o.completed >= o.total
  }

  /** Consecutive passes required before the final verification. */
  const RequiredPasses: nat := 5

  /** The consecutive-pass counter after a run of observations: each passing
      observation adds one, any failing one resets it. */
  function PassesAfter(obs: seq<Observation>): (n: nat)
    ensures n <= |obs|
    ensures n > 0 ==> AllQuiet(obs[|obs| - 1])
    decreases |obs|
  {
    if |obs| == 0 then 0
    else if AllQuiet(obs[|obs| - 1]) then PassesAfter(obs[..|obs| - 1]) + 1
    else 0
  }

  /** The counter is at least `k` exactly when the last `k` observations
      all passed. */
  lemma {:induction false} PassesAfterIsQuietSuffix(obs: seq<Observation>, k: nat)
    ensures PassesAfter(obs) >= k <==>
              k <= |obs| && forall i :: |obs| - k <= i < |obs| ==> AllQuiet(obs[i])
    decreases |obs|
  {
    if |obs| > 0 && k > 0 {
      var prefix := obs[..|obs| - 1];
      PassesAfterIsQuietSuffix(prefix, k - 1);
      assert forall i :: 0 <= i < |prefix| ==> prefix[i] == obs[i];
    }
  }

  /** The final verification is scheduled after the observations exactly
      when the last five of them all passed. */
  lemma FinalCheckAfterFiveQuiet(obs: seq<Observation>)
    ensures PassesAfter(obs) >= RequiredPasses <==>
              |obs| >= RequiredPasses
              && forall i :: |obs| - RequiredPasses <= i < |obs| ==> AllQuiet(obs[i])
  {
    PassesAfterIsQuietSuffix(obs, RequiredPasses);
  }
}

=== FILE: registry.dfy ===
/** The shared bookkeeping of one download session and the critical sections
    a download worker runs on it. Each locked section of the worker becomes
    one transition: `Take` (the local-file check and the claim of a dequeued
    task) and `Finish` (recording the outcome of the transfer). Between the
    two, other workers' transitions may run. */
module Registry {
  import opened Transfer
  import opened Text
  import opened Numbers
  import Messages

  /** Paths, counters and the error log shared by all workers. */
  datatype Stats = Stats(
    downloaded: set<string>,   // transferred (or found locally) in this session
    downloading: set<string>,  // claimed by a worker, transfer in progress
    total: nat,                // files admitted by the scanners
    completed: nat,
    success: nat,
    failed: nat,
    errors: seq<string>,
    bytesExpected: int,        // sum of the admitted files' sizes
    queuedFiles: nat           // tasks put on the download queue
  )

  /** A transfer task: remote path and local destination. */
  datatype Task = Task(remote: string, local: string)

  /** The two facts the worker code keeps by construction: a path is never
      both claimed and done, and every completion is a success or a
      failure. */
  ghost predicate Consistent(s: Stats) {
    s.downloading !! s.downloaded && s.completed == s.success + s.failed
  }

  /** Where `Take` leaves the worker: either done with the task, or holding
      the claim on its path and about to transfer it. */
  datatype Taken = Taken(stats: Stats, claimed: bool)

  /** The worker's first look at a dequeued task. A non-empty local file
      counts as a success, once per path and without a transfer; otherwise a
      path already done or claimed is acknowledged and dropped; otherwise the
      worker claims it. */
  function Take(s: Stats, t: Task, localPresent: bool): (r: Taken)
    ensures localPresent ==> !r.claimed && t.remote in r.stats.downloaded
    ensures localPresent && t.remote !in s.downloaded ==>
              r.stats == s.(downloaded := s.downloaded + {t.remote},
                             completed := s.completed + 1, success := s.success + 1)
    ensures (localPresent && t.remote in s.downloaded)
            || (!localPresent && (t.remote in s.downloaded || t.remote in s.downloading))
            ==> r == Taken(s, false)
    ensures r.claimed <==> !localPresent && t.remote !in s.downloaded && t.remote !in s.downloading
    ensures r.claimed ==> r.stats == s.(downloading := s.downloading + {t.remote})
  {
    var p := t.remote;
    if localPresent then
      if p !in s.downloaded then
        Taken(s.(downloaded := s.downloaded + {p},
                 completed := s.completed + 1, success := s.success + 1), false)
      else
        Taken(s, false)
    else if p in s.downloaded || p in s.downloading then
      Taken(s, false)
    else
      Taken(s.(downloading := s.downloading + {p}), true)
  }

  /** A transfer counts as a success when it raised nothing or raised a
      disguised success reply. */
  predicate Succeeded(o: Outcome): (b: bool)
    ensures o.Ok? ==> b
    ensures o.Err? && !Contains(o.msg, "200") ==> !b
    ensures o.Err? && Contains(o.msg, "200") && ContainsIgnoringCase(o.msg, "binary") ==> b
    ensures b <==> o.Ok? || (Contains(o.msg, "200")
                             && (ContainsIgnoringCase(o.msg, "type") || ContainsIgnoringCase(o.msg, "binary")))
  {
    o.Ok? || Messages.IsDisguisedSuccess(o.msg)
  }

  /** The error-log entry of a failed transfer: the path, a colon and a
      space, then the message, which can be read back. */
  function ErrorEntry(p: string, msg: string): (e: string)
    ensures StartsWith(e, p + ":")
    ensures |e| == |p| + 2 + |msg| && e[|p| + 2..] == msg
  {
    assert (p + ": " + msg)[..|p| + 1] == p + ":";
    p + ": " + msg
  }

  /** Records the outcome of the transfer of a claimed path: exactly one
      completion, counted as one success or one failure; a success marks the
      path done, a failure logs exactly one entry; either way the claim is
      released and no other path is touched. */
  function Finish(s: Stats, p: string, o: Outcome): (r: Stats)
    ensures r.completed == s.completed + 1
    ensures Succeeded(o) ==> r.success == s.success + 1 && r.failed == s.failed
    ensures !Succeeded(o) ==> r.failed == s.failed + 1 && r.success == s.success
    ensures p !in r.downloading
    ensures Succeeded(o) ==> p in r.downloaded && r.errors == s.errors
    ensures !Succeeded(o) ==> r.downloaded == s.downloaded
                              && r.errors == s.errors + [ErrorEntry(p, o.msg)]
    ensures r.downloading == s.downloading - {p}
    ensures forall q :: q != p ==> (q in r.downloaded <==> q in s.downloaded)
    ensures r.total == s.total && r.queuedFiles == s.queuedFiles
            && r.bytesExpected == s.bytesExpected
  {
    if Succeeded(o) then
      s.(downloading := s.downloading - {p}, downloaded := s.downloaded + {p},
         completed := s.completed + 1, success := s.success + 1)
    else
      s.(downloading := s.downloading - {p},
         completed := s.completed + 1, failed := s.failed + 1,
         errors := s.errors + [ErrorEntry(p, o.msg)])
  }

  /** Python's `max(0, n)`, used where the source keeps a counter from going
      negative. */
  function ClampAtZero(n: int): (r: nat)
    ensures r >= n && (n >= 0 ==> r == n)
  {
    if n < 0 then 0 else n
  }

  /** The error-log entry of a worker that could not connect. */
  function ConnectErrorEntry(workerId: nat, reason: string): string {
    "Worker " + NatText(workerId) + " connection failed: " + reason
  }

  /** A worker whose connection fails logs one entry, naming itself, and
      processes nothing: no path, counter or other entry changes. */
  function ConnectFailed(s: Stats, workerId: nat, reason: string): (r: Stats)
    ensures |r.errors| == |s.errors| + 1 && r.errors[..|s.errors|] == s.errors
    ensures StartsWith(r.errors[|s.errors|], "Worker ")
    ensures r.(errors := s.errors) == s
  {
    var entry := ConnectErrorEntry(workerId, reason);
    assert entry[..7] == "Worker ";
    s.(errors := s.errors + [entry])
  }

  /** Claiming keeps the bookkeeping consistent; so does counting a local
      file, provided no other worker holds the claim on that path. */
  lemma TakeKeepsConsistent(s: Stats, t: Task, localPresent: bool)
    requires Consistent(s)
    requires localPresent ==> t.remote !in s.downloading
    ensures Consistent(Take(s, t, localPresent).stats)
  {
  }

  /** Recording an outcome keeps the bookkeeping consistent when the worker
      holds the claim. */
  lemma FinishKeepsConsistent(s: Stats, p: string, o: Outcome)
    requires Consistent(s) && p in s.downloading
    ensures Consistent(Finish(s, p, o))
    ensures !Succeeded(o) ==> p !in Finish(s, p, o).downloaded
  {
  }

  /** The local-file branch does not consult the claimed set: if a second
      task for a path arrives while another worker transfers it and the
      partly written local file is already non-empty, the path ends up both
      claimed and done, and is counted twice. */
  lemma LocalFileBranchIgnoresClaims()
    ensures var s := Stats({}, {"/a"}, 2, 0, 0, 0, [], 0, 2);
            var r := Take(s, Task("/a", "dl/a"), true).stats;
            Consistent(s) && !Consistent(r)
            && Finish(r, "/a", Ok).completed == 2
  {
  }

  /** One task handled start to finish with no other worker interleaved. */
  function Process(s: Stats, t: Task, localPresent: bool, o: Outcome): (r: Stats)
    ensures r.completed <= s.completed + 1
    ensures r.completed - s.completed == (r.success - s.success) + (r.failed - s.failed)
    ensures t.remote !in s.downloading ==> r.downloading == s.downloading
  {
    var taken := Take(s, t, localPresent);
    if taken.claimed then Finish(taken.stats, t.remote, o) else taken.stats
  }

  /** A task that is handled completely either changes nothing, or adds one
      completion and one success with the path done, or adds one completion
      and one failure with one log entry. */
  lemma ProcessOutcomes(s: Stats, t: Task, localPresent: bool, o: Outcome)
    requires Consistent(s)
    requires localPresent ==> t.remote !in s.downloading
    ensures var r := Process(s, t, localPresent, o);
            Consistent(r)
            && (|| r == s
                || (r.completed == s.completed + 1 && r.success == s.success + 1
                    && t.remote in r.downloaded && r.errors == s.errors)
                || (r.completed == s.completed + 1 && r.failed == s.failed + 1
                    && t.remote !in r.downloaded
                    && r.errors == s.errors + [ErrorEntry(t.remote, o.msg)]))
  {
    var taken := Take(s, t, localPresent);
    TakeKeepsConsistent(s, t, localPresent);
    if taken.claimed {
      FinishKeepsConsistent(taken.stats, t.remote, o);
    }
  }
}

=== FILE: retry.dfy ===
/** The list of failed downloads the interface keeps, and the two ways a
    failed file is downloaded again: automatically right after it fails
    (when automatic retry is on and a session is running), or all at once
    on request after the session. */
module Retry {
  import opened Text
  import opened Paths
  import opened Registry
  import opened Crawler
  import opened Optional

  /** The failed files with their local destinations, in the order they
      failed. */
  type Failures = seq<(string, string)>

  /** The interface-side state next to the shared crawl state. */
  datatype Ui = Ui(crawl: Crawl, failures: Failures)

  /** A file reported as completed leaves the failure list. */
  function Forget(f: Failures, p: string): (r: Failures)
    ensures forall e :: e in r <==> e in f && e.0 != p
    ensures |r| <= |f|
  {
    if |f| == 0 then []
    else (if f[0].0 == p then [] else [f[0]]) + Forget(f[1..], p)
  }

  /** Forgetting works on each part of the list separately, so the failures
      that stay keep their order. */
  lemma {:induction false} ForgetAppend(a: Failures, b: Failures, p: string)
    ensures Forget(a + b, p) == Forget(a, p) + Forget(b, p)
    decreases |a|
  {
    if |a| == 0 {
      assert a + b == b;
    } else {
      assert (a + b)[1..] == a[1..] + b;
      ForgetAppend(a[1..], b, p);
    }
  }

  /** A single failure stays exactly when it is for another file. */
  lemma ForgetOne(x: (string, string), p: string)
    ensures Forget([x], p) == if x.0 == p then [] else [x]
  {
    assert [x][1..] == [];
  }

  /** A file reported as failed, unless it is already on the failure list:
      with automatic retry on during a session it goes straight back on the
      download queue (and is no longer considered done), otherwise it is
      added to the failure list with its local destination. The counters
      are not touched either way. */
  function OnFailed(u: Ui, p: string, localDir: string, autoRetry: bool, running: bool): (r: Ui)
    ensures p in Names(u.failures) ==> r == u
    ensures p !in Names(u.failures) && autoRetry && running ==>
              && r.failures == u.failures
              && r.crawl.queue == u.crawl.queue + [Job(Task(p, LocalPath(localDir, p)))]
              && r.crawl.stats.downloaded == u.crawl.stats.downloaded - {p}
              && r.crawl.stats.queuedFiles == u.crawl.stats.queuedFiles + 1
              && r.crawl.(queue := u.crawl.queue,
                          stats := r.crawl.stats.(downloaded := u.crawl.stats.downloaded,
                                                  queuedFiles := u.crawl.stats.queuedFiles))
                 == u.crawl
    ensures p !in Names(u.failures) && !(autoRetry && running) ==>
              r.crawl == u.crawl && r.failures == u.failures + [(p, LocalPath(localDir, p))]
    ensures r.crawl.stats.completed == u.crawl.stats.completed
            && r.crawl.stats.failed == u.crawl.stats.failed
            && r.crawl.stats.total == u.crawl.stats.total
  {
    if p in Names(u.failures) then u
    else
      var local := LocalPath(localDir, p);
      if autoRetry && running then
        var s := u.crawl.stats;
        u.(crawl := u.crawl.(queue := u.crawl.queue + [Job(Task(p, local))],
                             stats := s.(queuedFiles := s.queuedFiles + 1,
                                         downloaded := s.downloaded - {p})))
      else
        u.(failures := u.failures + [(p, local)])
  }

  /** The failure list never names a file twice. */
  lemma FailuresStayUnique(u: Ui, p: string, q: string, localDir: string, autoRetry: bool, running: bool)
    requires NoDup(Names(u.failures))
    ensures NoDup(Names(OnFailed(u, p, localDir, autoRetry, running).failures))
    ensures NoDup(Names(Forget(u.failures, q)))
  {
    var r := OnFailed(u, p, localDir, autoRetry, running);
    if p !in Names(u.failures) && !(autoRetry && running) {
      assert Names(r.failures) == Names(u.failures) + [p];
    }
    ForgetKeepsUnique(u.failures, q);
  }

  lemma {:induction false} ForgetKeepsUnique(f: Failures, q: string)
    requires NoDup(Names(f))
    ensures NoDup(Names(Forget(f, q)))
    decreases |f|
  {
    if |f| > 0 {
      NamesCons(f);
      var tail := Names(f[1..]);
      assert NoDup(tail) && f[0].0 !in tail by {
        forall i | 0 <= i < |tail| ensures tail[i] == Names(f)[i + 1] && tail[i] != f[0].0 {
          assert Names(f)[0] == f[0].0;
        }
      }
      ForgetKeepsUnique(f[1..], q);
      var rest := Forget(f[1..], q);
      if f[0].0 != q {
        var kept := Forget(f, q);
        assert kept == [f[0]] + rest;
        assert kept[1..] == rest;
        NamesCons(kept);
        ForgetKeepsKeys(f[1..], q, f[0].0);
        NoDupCons(f[0].0, Names(rest));
      } else {
        assert Forget(f, q) == rest;
      }
    }
  }

  lemma NamesCons<T>(f: seq<(string, T)>)
    requires |f| > 0
    ensures Names(f) == [f[0].0] + Names(f[1..])
  {
  }

  /** Forgetting adds no file. */
  lemma ForgetKeepsKeys(f: Failures, q: string, k: string)
    requires k !in Names(f)
    ensures k !in Names(Forget(f, q))
  {
    var r := Forget(f, q);
    forall i | 0 <= i < |r| ensures Names(r)[i] != k {
      assert r[i] in f;
      var j :| 0 <= j < |f| && f[j] == r[i];
      assert Names(f)[j] == r[i].0;
    }
  }

  lemma NoDupCons(x: string, s: seq<string>)
    requires x !in s && NoDup(s)
    ensures NoDup([x] + s)
  {
    var t := [x] + s;
    forall i, j | 0 <= i < j < |t| ensures t[i] != t[j] {
      assert t[j] == s[j - 1];
      if i > 0 {
        assert t[i] == s[i - 1];
      }
    }
  }

  /** Python `e.split(':')[0]`: the text before the first colon. */
  function FirstField(e: string): (r: string)
    ensures ':' !in r && |r| <= |e| && r == e[..|r|]
    ensures |r| < |e| ==> e[|r|] == ':'
  {
    if |e| == 0 || e[0] == ':' then "" else [e[0]] + FirstField(e[1..])
  }

  lemma {:induction false} FirstFieldOfEntry(e: string, p: string)
    requires ':' !in p && StartsWith(e, p + ":")
    ensures FirstField(e) == p
    decreases |p|
  {
    if |p| > 0 {
      assert e[0] == p[0];
      assert StartsWith(e[1..], p[1..] + ":") by {
        assert (p + ":")[1..] == p[1..] + ":";
      }
      FirstFieldOfEntry(e[1..], p[1..]);
    } else {
      assert e[0] == ':';
    }
  }

  /** An error entry logged for one of `paths`: it starts with the path and
      a colon. */
  predicate OwnedBy(e: string, paths: seq<string>) {
    exists i :: 0 <= i < |paths| && StartsWith(e, paths[i] + ":")
  }

  lemma OwnedByOne(p: string)
    ensures forall e :: OwnedBy(e, [p]) <==> StartsWith(e, p + ":")
  {
    forall e | StartsWith(e, p + ":") ensures OwnedBy(e, [p]) {
      assert [p][0] == p;
    }
  }

  lemma OwnedByCons(e: string, p: string, ps: seq<string>)
    ensures OwnedBy(e, [p] + ps) <==> StartsWith(e, p + ":") || OwnedBy(e, ps)
  {
    var all := [p] + ps;
    if OwnedBy(e, ps) {
      var i :| 0 <= i < |ps| && StartsWith(e, ps[i] + ":");
      assert all[i + 1] == ps[i];
    }
    if StartsWith(e, p + ":") {
      assert all[0] == p;
    }
    if OwnedBy(e, all) && !StartsWith(e, p + ":") {
      var i :| 0 <= i < |all| && StartsWith(e, all[i] + ":");
      assert ps[i - 1] == all[i];
    }
  }

  /** The log without the entries of `paths`; the other entries are kept. */
  function DropEntries(errors: seq<string>, paths: seq<string>): (r: seq<string>)
    ensures forall e :: e in r <==> e in errors && !OwnedBy(e, paths)
    ensures |r| <= |errors|
    decreases |errors|
  {
    if |errors| == 0 then []
    else
      assert errors == [errors[0]] + errors[1..];
      (if OwnedBy(errors[0], paths) then [] else [errors[0]]) + DropEntries(errors[1..], paths)
  }

  /** Dropping works entry by entry: on a concatenated log it gives the
      concatenation of the two results. With `DropEntriesOne` this fixes
      the result completely: the kept entries stay in their order and with
      their repetitions. */
  lemma {:induction false} DropEntriesAppend(a: seq<string>, b: seq<string>, paths: seq<string>)
    ensures DropEntries(a + b, paths) == DropEntries(a, paths) + DropEntries(b, paths)
    decreases |a|
  {
    if |a| == 0 {
      assert a + b == b;
    } else {
      assert (a + b)[0] == a[0];
      assert (a + b)[1..] == a[1..] + b;
      DropEntriesAppend(a[1..], b, paths);
    }
  }

  /** A single entry is kept exactly when it belongs to none of the paths. */
  lemma DropEntriesOne(e: string, paths: seq<string>)
    ensures DropEntries([e], paths) == if OwnedBy(e, paths) then [] else [e]
  {
    assert [e][1..] == [];
  }

  lemma {:induction false} DropEntriesNone(errors: seq<string>, paths: seq<string>)
    requires forall i :: 0 <= i < |errors| ==> !OwnedBy(errors[i], paths)
    ensures DropEntries(errors, paths) == errors
    decreases |errors|
  {
    if |errors| > 0 {
      DropEntriesNone(errors[1..], paths);
      assert errors == [errors[0]] + errors[1..];
    }
  }

  /** The errors that do not belong to file `p`, in their order. */
  function ClearErrors(errors: seq<string>, p: string): (r: seq<string>)
    ensures forall e :: e in r <==> e in errors && !StartsWith(e, p + ":")
    ensures |r| <= |errors|
  {
    OwnedByOne(p);
    DropEntries(errors, [p])
  }

  lemma ClearErrorsNoMatch(errors: seq<string>, p: string)
    requires forall i :: 0 <= i < |errors| ==> !StartsWith(errors[i], p + ":")
    ensures ClearErrors(errors, p) == errors
  {
    OwnedByOne(p);
    DropEntriesNone(errors, [p]);
  }

  /** Clearing one path and then the others is clearing all of them. */
  lemma {:induction false} DropEntriesTwice(errors: seq<string>, p: string, ps: seq<string>)
    ensures DropEntries(ClearErrors(errors, p), ps) == DropEntries(errors, [p] + ps)
    decreases |errors|
  {
    if |errors| > 0 {
      var e0 := errors[0];
      OwnedByOne(p);
      OwnedByCons(e0, p, ps);
      DropEntriesTwice(errors[1..], p, ps);
      var head := if StartsWith(e0, p + ":") then [] else [e0];
      assert ClearErrors(errors, p) == head + ClearErrors(errors[1..], p);
      DropEntriesAppend(head, ClearErrors(errors[1..], p), ps);
      DropEntriesOne(e0, ps);
      assert head == [] ==> DropEntries(head, ps) == [];
    }
  }

  /** The error clearing as written: the log is filtered only when `p`
      equals the text before the first colon of some entry. */
  function ClearErrorsAsWritten(errors: seq<string>, p: string): (r: seq<string>)
    ensures (exists i :: 0 <= i < |errors| && FirstField(errors[i]) == p) ==> r == ClearErrors(errors, p)
    ensures (forall i :: 0 <= i < |errors| ==> FirstField(errors[i]) != p) ==> r == errors
  {
    if exists i :: 0 <= i < |errors| && FirstField(errors[i]) == p then ClearErrors(errors, p) else errors
  }

  /** For a path without a colon, the guard is exact and the two clearings
      agree. */
  lemma ClearingAgreesWithoutColon(errors: seq<string>, p: string)
    requires ':' !in p
    ensures ClearErrorsAsWritten(errors, p) == ClearErrors(errors, p)
  {
    forall i | 0 <= i < |errors| && StartsWith(errors[i], p + ":")
      ensures FirstField(errors[i]) == p
    {
      FirstFieldOfEntry(errors[i], p);
    }
    if !exists i :: 0 <= i < |errors| && FirstField(errors[i]) == p {
      ClearErrorsNoMatch(errors, p);
    }
  }

  /** A path containing a colon: the guard compares it with the text before
      the first colon of its own entry, never matches, and the entry
      survives the retry; the corrected clearing removes it. */
  lemma ColonPathKeepsError()
    ensures var p := "/a:b";
            var errors := [ErrorEntry(p, "550 timeout")];
            ClearErrorsAsWritten(errors, p) == errors && ClearErrors(errors, p) == []
  {
    var p := "/a:b";
    var e := ErrorEntry(p, "550 timeout");
    assert e[..|p| + 1] == p + ":";
    assert FirstField(e) == "/a" by {
      assert e[0] == '/' && e[1] == 'a' && e[2] == ':';
      assert FirstField(e[2..]) == "";
      assert FirstField(e[1..]) == "a";
    }
  }

  /** The corrected clearing removes every entry a failed transfer of `p`
      logged, and nothing logged for a path that `p + ":"` does not begin. */
  lemma ClearErrorsRemovesEntries(errors: seq<string>, p: string, msg: string, q: string, m: string)
    requires !StartsWith(ErrorEntry(q, m), p + ":")
    ensures ErrorEntry(p, msg) !in ClearErrors(errors, p)
    ensures ErrorEntry(q, m) in errors ==> ErrorEntry(q, m) in ClearErrors(errors, p)
  {
    assert ErrorEntry(p, msg)[..|p + ":"|] == p + ":";
  }

  /** The tasks the failures are re-queued as. */
  function TasksOf(f: Failures): (q: seq<Item>)
    ensures |q| == |f|
    ensures forall i :: 0 <= i < |f| ==> q[i] == Job(Task(f[i].0, f[i].1))
  {
    seq(|f|, i requires 0 <= i < |f| => Job(Task(f[i].0, f[i].1)))
  }

  /** Which error clearing a retry uses: the program's guarded one, or the
      corrected one. */
  datatype Clearing = AsWritten | Corrected

  function ClearWith(how: Clearing, errors: seq<string>, p: string): seq<string> {
    match how
    case AsWritten => ClearErrorsAsWritten(errors, p)
    case Corrected => ClearErrors(errors, p)
  }

  /** Puts each failure back on the download queue in order, takes it out of
      the done set and clears its error entries; nothing else changes. */
  function Requeue(c: Crawl, f: Failures, how: Clearing): (r: Crawl)
    ensures r.queue == c.queue + TasksOf(f)
    ensures r.stats.queuedFiles == c.stats.queuedFiles + |f|
    ensures r.stats.total == c.stats.total && r.stats.completed == c.stats.completed
            && r.stats.success == c.stats.success && r.stats.failed == c.stats.failed
            && r.stats.downloading == c.stats.downloading
    ensures r.fileList == c.fileList && r.scannedDirs == c.scannedDirs && r.dirQueue == c.dirQueue
    decreases |f|
  {
    if |f| == 0 then
      assert c.queue + TasksOf(f) == c.queue;
      c
    else
      var c1 := RequeueOne(c, f[0], how);
      var r := Requeue(c1, f[1..], how);
      TasksOfStep(c.queue, f);
      r
  }

  lemma TasksOfStep(q: seq<Item>, f: Failures)
    requires |f| > 0
    ensures q + [Job(Task(f[0].0, f[0].1))] + TasksOf(f[1..]) == q + TasksOf(f)
  {
    assert TasksOf(f) == [Job(Task(f[0].0, f[0].1))] + TasksOf(f[1..]);
  }

  /** One failure back on the queue. */
  function RequeueOne(c: Crawl, failure: (string, string), how: Clearing): (r: Crawl)
    ensures r.queue == c.queue + [Job(Task(failure.0, failure.1))]
    ensures r.stats.downloaded == c.stats.downloaded - {failure.0}
    ensures forall e :: e in r.stats.errors ==> e in c.stats.errors
    ensures forall e :: e in c.stats.errors && !StartsWith(e, failure.0 + ":") ==> e in r.stats.errors
    ensures how.Corrected? ==> r.stats.errors == ClearErrors(c.stats.errors, failure.0)
    ensures r.stats.queuedFiles == c.stats.queuedFiles + 1
    ensures r.stats.total == c.stats.total && r.stats.completed == c.stats.completed
            && r.stats.success == c.stats.success && r.stats.failed == c.stats.failed
            && r.stats.downloading == c.stats.downloading
    ensures r.fileList == c.fileList && r.scannedDirs == c.scannedDirs && r.dirQueue == c.dirQueue
  {
    var s := c.stats;
    c.(queue := c.queue + [Job(Task(failure.0, failure.1))],
       stats := s.(queuedFiles := s.queuedFiles + 1,
                   downloaded := s.downloaded - {failure.0},
                   errors := ClearWith(how, s.errors, failure.0)))
  }

  /** The done set loses exactly the retried paths. */
  lemma {:induction false} RequeueForgetsDone(c: Crawl, f: Failures, how: Clearing)
    ensures forall p :: p in Requeue(c, f, how).stats.downloaded <==> p in c.stats.downloaded && p !in Names(f)
    decreases |f|
  {
    if |f| > 0 {
      RequeueForgetsDone(RequeueOne(c, f[0], how), f[1..], how);
      NamesCons(f);
    }
  }

  /** With the corrected clearing, the log becomes exactly the old log
      without the entries of the retried paths, in its order. */
  lemma {:induction false} RequeueDropsErrors(c: Crawl, f: Failures)
    ensures Requeue(c, f, Corrected).stats.errors == DropEntries(c.stats.errors, Names(f))
    decreases |f|
  {
    if |f| == 0 {
      DropEntriesNone(c.stats.errors, Names(f));
    } else {
      var c1 := RequeueOne(c, f[0], Corrected);
      var r := Requeue(c1, f[1..], Corrected);
      assert Requeue(c, f, Corrected) == r;
      RequeueDropsErrors(c1, f[1..]);
      assert r.stats.errors == DropEntries(ClearErrors(c.stats.errors, f[0].0), Names(f[1..]));
      DropEntriesTwice(c.stats.errors, f[0].0, Names(f[1..]));
      NamesCons(f);
    }
  }

  /** Either clearing only removes entries, and keeps every entry that
      belongs to no retried path. */
  lemma {:induction false} RequeueKeepsOthers(c: Crawl, f: Failures, how: Clearing)
    ensures forall e :: e in Requeue(c, f, how).stats.errors ==> e in c.stats.errors
    ensures forall e :: e in c.stats.errors && !OwnedBy(e, Names(f)) ==> e in Requeue(c, f, how).stats.errors
    decreases |f|
  {
    if |f| > 0 {
      var c1 := RequeueOne(c, f[0], how);
      RequeueKeepsOthers(c1, f[1..], how);
      NamesCons(f);
      forall e ensures OwnedBy(e, Names(f)) <==> StartsWith(e, f[0].0 + ":") || OwnedBy(e, Names(f[1..])) {
        OwnedByCons(e, f[0].0, Names(f[1..]));
      }
    }
  }

  /** When no retried path contains a colon, the program's guarded clearing
      does exactly what the corrected one does. */
  lemma {:induction false} RequeueAgreesWithoutColons(c: Crawl, f: Failures)
    requires forall i :: 0 <= i < |f| ==> ':' !in f[i].0
    ensures Requeue(c, f, AsWritten) == Requeue(c, f, Corrected)
    decreases |f|
  {
    if |f| > 0 {
      ClearingAgreesWithoutColon(c.stats.errors, f[0].0);
      assert RequeueOne(c, f[0], AsWritten) == RequeueOne(c, f[0], Corrected);
      RequeueAgreesWithoutColons(RequeueOne(c, f[0], Corrected), f[1..]);
    }
  }

  /** Retrying every failure on request. Nothing happens while a session is
      running or when the list is empty. Otherwise every failed file is
      queued again with its recorded destination and forgotten as done, its
      error entries are cleared, the list is emptied, and `failed` is
      lowered by the number of retried files (not below zero); `completed`
      stays as it was. The program clears with `AsWritten`. */
  function RetryAll(u: Ui, running: bool, how: Clearing): (r: Ui)
    ensures |u.failures| == 0 || running ==> r == u
    ensures |u.failures| > 0 && !running ==>
              && r.failures == []
              && r.crawl.queue == u.crawl.queue + TasksOf(u.failures)
              && (forall p :: p in r.crawl.stats.downloaded <==>
                                p in u.crawl.stats.downloaded && p !in Names(u.failures))
              && (forall e :: e in r.crawl.stats.errors ==> e in u.crawl.stats.errors)
              && (forall e :: e in u.crawl.stats.errors && !OwnedBy(e, Names(u.failures)) ==>
                                e in r.crawl.stats.errors)
              && (how.Corrected? ==>
                    r.crawl.stats.errors == DropEntries(u.crawl.stats.errors, Names(u.failures)))
              && r.crawl.stats.failed == ClampAtZero(u.crawl.stats.failed - |u.failures|)
              && r.crawl.stats.completed == u.crawl.stats.completed
              && r.crawl.stats.success == u.crawl.stats.success
              && r.crawl.stats.total == u.crawl.stats.total
  {
    if |u.failures| == 0 || running then u
    else
      RequeueForgetsDone(u.crawl, u.failures, how);
      RequeueKeepsOthers(u.crawl, u.failures, how);
      RequeueDropsErrors(u.crawl, u.failures);
      var c := Requeue(u.crawl, u.failures, how);
      Ui(c.(stats := c.stats.(failed := ClampAtZero(c.stats.failed - |u.failures|))), [])
  }

  /** After a corrected retry, every error entry a failed transfer logged
      for a retried file is gone. */
  lemma RetryDropsEntries(u: Ui, running: bool, i: nat, msg: string)
    requires !running && i < |u.failures|
    ensures ErrorEntry(u.failures[i].0, msg) !in RetryAll(u, running, Corrected).crawl.stats.errors
  {
    var p := u.failures[i].0;
    assert StartsWith(ErrorEntry(p, msg), p + ":") by {
      assert ErrorEntry(p, msg)[..|p + ":"|] == p + ":";
    }
    assert Names(u.failures)[i] == p;
  }

  /** The program's retry and the corrected one agree whenever no failed
      path contains a colon. */
  lemma RetryAgreesWithoutColons(u: Ui, running: bool)
    requires forall i :: 0 <= i < |u.failures| ==> ':' !in u.failures[i].0
    ensures RetryAll(u, running, AsWritten) == RetryAll(u, running, Corrected)
  {
    RequeueAgreesWithoutColons(u.crawl, u.failures);
  }

  /** A failed file whose path contains a colon keeps its error entry
      through the program's retry; the corrected retry removes it. */
  lemma ColonPathSurvivesRetry()
    ensures var e := ErrorEntry("/a:b", "550 timeout");
            var u := Ui(Crawl(Stats({}, {}, 1, 1, 0, 1, [e], 0, 1), [], ["/a:b"], {}, []),
                        [("/a:b", "dl/a:b")]);
            && RetryAll(u, false, AsWritten).crawl.stats.errors == [e]
            && RetryAll(u, false, Corrected).crawl.stats.errors == []
  {
    var e := ErrorEntry("/a:b", "550 timeout");
    var c := Crawl(Stats({}, {}, 1, 1, 0, 1, [e], 0, 1), [], ["/a:b"], {}, []);
    var f := [("/a:b", "dl/a:b")];
    ColonPathKeepsError();
    assert f[1..] == [];
    assert Requeue(c, f, AsWritten) == RequeueOne(c, f[0], AsWritten);
    assert Requeue(c, f, Corrected) == RequeueOne(c, f[0], Corrected);
  }

  /** Both entries start with "/a:", so the corrected clearing of "/a"
      removes them both. */
  lemma ExtendedPathOwned(e1: string, e2: string)
    requires StartsWith(e1, "/a:") && StartsWith(e2, "/a:")
    ensures ClearErrors([e1, e2], "/a") == []
  {
    OwnedByOne("/a");
    DropEntriesOne(e1, ["/a"]);
    DropEntriesOne(e2, ["/a"]);
    DropEntriesAppend([e1], [e2], ["/a"]);
    assert [e1, e2] == [e1] + [e2];
  }

  /** An entry of a file "/a:b" starts with "/a:", and the first
      colon-separated field of an entry of "/a" is "/a": clearing "/a"
      removes both entries under either clearing. */
  lemma ExtendedPathEntryCleared()
    ensures var errors := [ErrorEntry("/a", "550 x"), ErrorEntry("/a:b", "550 y")];
            ClearErrorsAsWritten(errors, "/a") == [] && ClearErrors(errors, "/a") == []
  {
    var e1 := ErrorEntry("/a", "550 x");
    var e2 := ErrorEntry("/a:b", "550 y");
    assert FirstField(e1) == "/a" by {
      assert e1[0] == '/' && e1[1] == 'a' && e1[2] == ':';
      assert FirstField(e1[2..]) == "";
      assert FirstField(e1[1..]) == "a";
    }
    assert [e1, e2][0] == e1;
    assert StartsWith(e2, "/a:") by {
      assert e2[..|"/a:b"| + 1] == "/a:b:";
    }
    ExtendedPathOwned(e1, e2);
  }

  /** The same at the level of the retry: retrying "/a" leaves no entry of
      "/a:b" in the log. */
  lemma RetryClearsExtendedPath()
    ensures var errors := [ErrorEntry("/a", "550 x"), ErrorEntry("/a:b", "550 y")];
            var u := Ui(Crawl(Stats({}, {}, 2, 2, 0, 2, errors, 0, 2), [], ["/a", "/a:b"], {}, []),
                        [("/a", "dl/a")]);
            && RetryAll(u, false, AsWritten).crawl.stats.errors == []
            && RetryAll(u, false, Corrected).crawl.stats.errors == []
  {
    var errors := [ErrorEntry("/a", "550 x"), ErrorEntry("/a:b", "550 y")];
    var c := Crawl(Stats({}, {}, 2, 2, 0, 2, errors, 0, 2), [], ["/a", "/a:b"], {}, []);
    var f := [("/a", "dl/a")];
    ExtendedPathEntryCleared();
    assert f[1..] == [];
    assert Requeue(c, f, AsWritten) == RequeueOne(c, f[0], AsWritten);
    assert Requeue(c, f, Corrected) == RequeueOne(c, f[0], Corrected);
  }

  /** Session start on the interface side: the crawl state is reset and the
      failure list is emptied. */
  function StartUiSession(u: Ui, remoteBase: string): (r: Ui)
    ensures r.failures == [] && r.crawl == StartSession(u.crawl, remoteBase)
  {
    Ui(StartSession(u.crawl, remoteBase), [])
  }

  /** Failures of an earlier session cannot be retried in the next one. */
  lemma NoRetryAfterStart(u: Ui, remoteBase: string, running: bool, how: Clearing)
    ensures var s := StartUiSession(u, remoteBase);
            RetryAll(s, running, how) == s
  {
  }

  /** Because `failed` drops while `completed` does not, a retry with any
      failure counted breaks the identity `completed == success + failed`. */
  lemma RetryBreaksCountIdentity(u: Ui)
    requires Consistent(u.crawl.stats) && u.crawl.stats.failed > 0 && |u.failures| > 0
    ensures var r := RetryAll(u, false, AsWritten).crawl.stats;
            r.completed > r.success + r.failed
  {
  }

  /** Automatic retry puts a failed file back on the queue without
      touching the counters: with one file admitted, after its first failure
      `completed` already equals `total` while its second attempt is still
      waiting in the queue. */
  lemma AutoRetryCompletesEarly()
    ensures var c0 := Crawl(Stats({}, {}, 1, 0, 0, 0, [], 0, 1),
                            [Job(Task("/f", "dl/f"))], ["/f"], {}, []);
            var taken := WorkerTake(c0, (l: string) => false);
            var c1 := WorkerFinish(taken.crawl, "/f", Transfer.Err("550 denied"));
            var u := OnFailed(Ui(c1, []), "/f", "dl", true, true);
            && Accounted(c0)
            && u.crawl.stats.completed == u.crawl.stats.total
            && PendingJobs(u.crawl.queue) == 1
            && !Accounted(u.crawl)
  {
    var c0 := Crawl(Stats({}, {}, 1, 0, 0, 0, [], 0, 1), [Job(Task("/f", "dl/f"))], ["/f"], {}, []);
    assert PendingJobs(c0.queue) == 1 by {
      assert c0.queue[1..] == [];
    }
    var taken := WorkerTake(c0, (l: string) => false);
    assert taken.crawl.queue == [] && taken.crawl.stats.total == 1;
    var c1 := WorkerFinish(taken.crawl, "/f", Transfer.Err("550 denied"));
    assert c1.queue == [] && c1.stats.completed == 1 && c1.stats.total == 1;
    var u := OnFailed(Ui(c1, []), "/f", "dl", true, true);
    assert u.crawl.queue == [Job(Task("/f", LocalPath("dl", "/f")))];
    assert PendingJobs(u.crawl.queue) == 1 by {
      assert u.crawl.queue[1..] == [];
    }
  }
}

=== FILE: text.dfy ===
/** String primitives with the meaning Python gives them: `in`, `startswith`,
    `upper`/`lower` (ASCII letters only), `isspace`, `split()` with no
    separator, `' '.join`, `rstrip`/`lstrip` of one character and `replace`
    of one character by another. */
module Text {

  /** `w` is a prefix of `s` (Python `s.startswith(w)`). */
  predicate StartsWith(s: string, w: string) {
    |w| <= |s| && s[..|w|] == w
  }

  /** `w` occurs in `s` at some position (Python `w in s`). */
  predicate Contains(s: string, w: string)
    decreases |s|
  {
    StartsWith(s, w) || (|s| > 0 && Contains(s[1..], w))
  }

  /** The occurrence form of `Contains`: some suffix of `s` starts with `w`. */
  lemma {:induction false} ContainsIffOccurs(s: string, w: string)
    ensures Contains(s, w) <==> exists i :: 0 <= i <= |s| && StartsWith(s[i..], w)
    decreases |s|
  {
    if Contains(s, w) {
      if StartsWith(s, w) {
        assert s[0..] == s;
      } else {
        ContainsIffOccurs(s[1..], w);
        var i :| 0 <= i <= |s[1..]| && StartsWith(s[1..][i..], w);
        assert s[1..][i..] == s[i + 1..];
      }
    }
    if exists i :: 0 <= i <= |s| && StartsWith(s[i..], w) {
      var i :| 0 <= i <= |s| && StartsWith(s[i..], w);
      if i == 0 {
        assert s[0..] == s;
      } else {
        assert s[1..][i - 1..] == s[i..];
        ContainsIffOccurs(s[1..], w);
      }
    }
  }

  /** An occurrence inside a prefix is an occurrence in the whole string. */
  lemma {:induction false} ContainsPrefixMonotone(a: string, b: string, w: string)
    requires Contains(a, w)
    ensures Contains(a + b, w)
    decreases |a|
  {
    if StartsWith(a, w) {
      assert (a + b)[..|w|] == a[..|w|];
    } else {
      assert (a + b)[1..] == a[1..] + b;
      ContainsPrefixMonotone(a[1..], b, w);
    }
  }

  /** An occurrence inside a suffix is an occurrence in the whole string. */
  lemma {:induction false} ContainsSuffixMonotone(a: string, b: string, w: string)
    requires Contains(b, w)
    ensures Contains(a + b, w)
    decreases |a|
  {
    if |a| == 0 {
      assert a + b == b;
    } else {
      assert (a + b)[1..] == a[1..] + b;
      ContainsSuffixMonotone(a[1..], b, w);
    }
  }

  /** An occurrence in `a + b`, where `a` ends with the character `c`, lies
      inside `a`, inside `b`, or across the boundary and then covers `c`. */
  lemma {:induction false} ContainsAcrossSeparator(a: string, b: string, w: string, c: char)
    requires |a| > 0 && a[|a| - 1] == c
    ensures Contains(a + b, w) ==> Contains(a, w) || c in w || Contains(b, w)
    decreases |a|
  {
    if StartsWith(a + b, w) {
      if |w| <= |a| {
        assert a[..|w|] == (a + b)[..|w|];
        assert StartsWith(a, w);
      } else {
        assert w[|a| - 1] == (a + b)[|a| - 1];
      }
    } else if Contains(a + b, w) {
      assert (a + b)[1..] == a[1..] + b;
      if |a| == 1 {
        assert a[1..] + b == b;
      } else {
        ContainsAcrossSeparator(a[1..], b, w, c);
      }
    }
  }

  /** ASCII letter test. */
  predicate IsAsciiLetter(c: char) {
    ('a' <= c <= 'z') || ('A' <= c <= 'Z')
  }

  /** Python `str.upper` restricted to ASCII letters. */
  function UpperChar(c: char): char {
    if 'a' <= c <= 'z' then (c as int - 32) as char else c
  }

  /** Python `str.lower` restricted to ASCII letters. */
  function LowerChar(c: char): char {
    if 'A' <= c <= 'Z' then (c as int + 32) as char else c
  }

  function Upper(s: string): (r: string)
    ensures |r| == |s|
    ensures forall i :: 0 <= i < |s| ==> r[i] == UpperChar(s[i])
  {
    seq(|s|, i requires 0 <= i < |s| => UpperChar(s[i]))
  }

  function Lower(s: string): (r: string)
    ensures |r| == |s|
    ensures forall i :: 0 <= i < |s| ==> r[i] == LowerChar(s[i])
  {
    seq(|s|, i requires 0 <= i < |s| => LowerChar(s[i]))
  }

  /** Two characters are equal up to the case of an ASCII letter; defined by
      code-point distance, independently of `UpperChar` and `LowerChar`. */
  predicate SameIgnoringCase(a: char, b: char) {
    a == b
    || (IsAsciiLetter(a) && IsAsciiLetter(b)
        && (a as int - b as int == 32 || b as int - a as int == 32))
  }

  /** `w` is a prefix of `s` up to ASCII case. */
  predicate StartsWithIgnoringCase(s: string, w: string) {
    |w| <= |s| && forall k :: 0 <= k < |w| ==> SameIgnoringCase(s[k], w[k])
  }

  /** `w` occurs in `s` up to ASCII case. */
  predicate ContainsIgnoringCase(s: string, w: string)
    decreases |s|
  {
    StartsWithIgnoringCase(s, w) || (|s| > 0 && ContainsIgnoringCase(s[1..], w))
  }

  lemma UpperCharSame(a: char, b: char)
    ensures UpperChar(a) == UpperChar(b) <==> SameIgnoringCase(a, b)
  {
  }

  lemma LowerCharSame(a: char, b: char)
    ensures LowerChar(a) == LowerChar(b) <==> SameIgnoringCase(a, b)
  {
  }

  /** Comparing upper-cased strings is case-insensitive comparison. */
  lemma {:induction false} ContainsUpperIffIgnoringCase(s: string, w: string)
    ensures Contains(Upper(s), Upper(w)) <==> ContainsIgnoringCase(s, w)
    decreases |s|
  {
    var us, uw := Upper(s), Upper(w);
    assert StartsWith(us, uw) <==> StartsWithIgnoringCase(s, w) by {
      if |w| <= |s| {
        assert StartsWith(us, uw) <==> forall k :: 0 <= k < |w| ==> us[k] == uw[k] by {
          if forall k :: 0 <= k < |w| ==> us[k] == uw[k] {
            assert us[..|uw|] == uw;
          }
        }
        forall k | 0 <= k < |w|
          ensures us[k] == uw[k] <==> SameIgnoringCase(s[k], w[k])
        {
          UpperCharSame(s[k], w[k]);
        }
      }
    }
    if |s| > 0 {
      assert us[1..] == Upper(s[1..]);
      ContainsUpperIffIgnoringCase(s[1..], w);
    }
  }

  /** Comparing lower-cased strings is case-insensitive comparison. */
  lemma {:induction false} ContainsLowerIffIgnoringCase(s: string, w: string)
    ensures Contains(Lower(s), Lower(w)) <==> ContainsIgnoringCase(s, w)
    decreases |s|
  {
    var ls, lw := Lower(s), Lower(w);
    assert StartsWith(ls, lw) <==> StartsWithIgnoringCase(s, w) by {
      if |w| <= |s| {
        assert StartsWith(ls, lw) <==> forall k :: 0 <= k < |w| ==> ls[k] == lw[k] by {
          if forall k :: 0 <= k < |w| ==> ls[k] == lw[k] {
            assert ls[..|lw|] == lw;
          }
        }
        forall k | 0 <= k < |w|
          ensures ls[k] == lw[k] <==> SameIgnoringCase(s[k], w[k])
        {
          LowerCharSame(s[k], w[k]);
        }
      }
    }
    if |s| > 0 {
      assert ls[1..] == Lower(s[1..]);
      ContainsLowerIffIgnoringCase(s[1..], w);
    }
  }

  /** Python `str.isspace` for one character. */
  predicate IsSpace(c: char) {
    c == ' ' || ('\t' <= c <= '\r') || ('\U{1C}' <= c <= '\U{1F}')
    || c == '\U{85}' || c == '\U{A0}' || c == '\U{1680}'
    || ('\U{2000}' <= c <= '\U{200A}') || c == '\U{2028}' || c == '\U{2029}'
    || c == '\U{202F}' || c == '\U{205F}' || c == '\U{3000}'
  }

  predicate NoSpace(s: string) {
    forall i :: 0 <= i < |s| ==> !IsSpace(s[i])
  }

  /** The longest prefix of `s` without whitespace. */
  function Word(s: string): (w: string)
    ensures |w| <= |s| && w == s[..|w|]
    ensures NoSpace(w)
    ensures |w| < |s| ==> IsSpace(s[|w|])
  {
    if |s| == 0 || IsSpace(s[0]) then "" else [s[0]] + Word(s[1..])
  }

  /** Python `s.split()`: the maximal runs of non-whitespace characters. */
  function Split(s: string): (fields: seq<string>)
    ensures forall i :: 0 <= i < |fields| ==> |fields[i]| > 0 && NoSpace(fields[i])
    decreases |s|
  {
    if |s| == 0 then []
    else if IsSpace(s[0]) then Split(s[1..])
    else
      var w := Word(s);
      [w] + Split(s[|w|..])
  }

  /** Python `' '.join(fields)`. */
  function JoinSpaces(fields: seq<string>): string {
    if |fields| == 0 then ""
    else if |fields| == 1 then fields[0]
    else fields[0] + " " + JoinSpaces(fields[1..])
  }

  lemma {:induction false} WordOfFieldThenSpace(w: string, rest: string)
    requires |w| > 0 && NoSpace(w)
    ensures Word(w + " " + rest) == w
    decreases |w|
  {
    var s := w + " " + rest;
    if |w| == 1 {
      assert s[1..] == " " + rest;
    } else {
      assert s[1..] == w[1..] + " " + rest;
      WordOfFieldThenSpace(w[1..], rest);
    }
  }

  lemma {:induction false} WordOfField(w: string)
    requires NoSpace(w)
    ensures Word(w) == w
    decreases |w|
  {
    if |w| > 0 {
      WordOfField(w[1..]);
    }
  }

  /** Splitting undoes joining with single spaces, for non-empty fields
      without whitespace. */
  lemma {:induction false} SplitJoinSpaces(fields: seq<string>)
    requires forall i :: 0 <= i < |fields| ==> |fields[i]| > 0 && NoSpace(fields[i])
    ensures Split(JoinSpaces(fields)) == fields
    decreases |fields|
  {
    if |fields| == 0 {
    } else if |fields| == 1 {
      var w := fields[0];
      WordOfField(w);
      assert w[|w|..] == "";
      assert Split(w) == [w] + Split("");
    } else {
      var w := fields[0];
      var rest := JoinSpaces(fields[1..]);
      var s := w + " " + rest;
      WordOfFieldThenSpace(w, rest);
      assert s[|w|..] == " " + rest;
      assert (" " + rest)[1..] == rest;
      SplitJoinSpaces(fields[1..]);
      assert Split(s) == [w] + Split(" " + rest);
    }
  }

  /** Python `s.replace(a, b)` for single characters. */
  function ReplaceChar(s: string, a: char, b: char): (r: string)
    ensures |r| == |s|
    ensures forall i :: 0 <= i < |s| ==> r[i] == (if s[i] == a then b else s[i])
  {
    seq(|s|, i requires 0 <= i < |s| => if s[i] == a then b else s[i])
  }

  lemma ReplaceCharAbsent(s: string, a: char, b: char)
    requires a !in s
    ensures ReplaceChar(s, a, b) == s
  {
  }

  lemma StartsWithOne(s: string, c: char)
    ensures StartsWith(s, [c]) <==> |s| > 0 && s[0] == c
  {
    if |s| > 0 && s[0] == c {
      assert s[..1] == [c];
    }
  }

  lemma StartsWithTwo(s: string, c: char, d: char)
    ensures StartsWith(s, [c, d]) <==> |s| > 1 && s[0] == c && s[1] == d
  {
    if |s| > 1 && s[0] == c && s[1] == d {
      assert s[..2] == [c, d];
    }
  }

  lemma ReplaceCharAppend(x: string, y: string, a: char, b: char)
    ensures ReplaceChar(x + y, a, b) == ReplaceChar(x, a, b) + ReplaceChar(y, a, b)
  {
  }

  /** Python `s.rstrip(c)`. */
  function RStrip(s: string, c: char): (r: string)
    ensures |r| <= |s| && r == s[..|r|]
    ensures |r| > 0 ==> r[|r| - 1] != c
    ensures forall i :: |r| <= i < |s| ==> s[i] == c
  {
    if |s| > 0 && s[|s| - 1] == c then RStrip(s[..|s| - 1], c) else s
  }

  /** Python `s.lstrip(c)`. */
  function LStrip(s: string, c: char): (r: string)
    ensures |r| <= |s| && r == s[|s| - |r|..]
    ensures |r| > 0 ==> r[0] != c
    ensures forall i :: 0 <= i < |s| - |r| ==> s[i] == c
  {
    if |s| > 0 && s[0] == c then LStrip(s[1..], c) else s
  }
}

=== FILE: transfer.dfy ===
/** One file download as a worker performs it: the remote path is tried in up
    to three spellings, the first that opens and streams completely wins, and
    when all fail the error of the last attempt is reworded and raised. The
    server connection is abstracted into two parameters: whether the size of
    a spelling can be read, and the outcome of the n-th open-and-stream
    attempt. */
module Transfer {
  import opened Text
  import opened Paths
  import Messages

  /** The result of transferring one file, as the worker sees it. */
  datatype Outcome = Ok | Err(msg: string)

  /** The spellings tried, in order: the spelling whose size could be read
      (absolute first, then relative), if any, then the absolute and the
      relative spelling. */
  function Spellings(remote: string, sizeKnown: string -> bool): (tries: seq<string>)
    ensures 2 <= |tries| <= 3
    ensures tries[|tries| - 2] == Absolute(remote) && tries[|tries| - 1] == Relative(remote)
    ensures |tries| == 3 <==> sizeKnown(Absolute(remote)) || sizeKnown(Relative(remote))
    ensures |tries| == 3 && sizeKnown(Absolute(remote)) ==> tries[0] == Absolute(remote)
    ensures |tries| == 3 && !sizeKnown(Absolute(remote)) ==> tries[0] == Relative(remote)
  {
    var norm := Absolute(remote);
    var alt := Relative(remote);
    var working := if sizeKnown(norm) then [norm] else if sizeKnown(alt) then [alt] else [];
    working + [norm, alt]
  }

  /** Tries the spellings in order until one succeeds; reports whether one
      did and, if none did, the error of the final attempt, which is always
      the relative spelling. */
  method TrySpellings(remote: string, sizeKnown: string -> bool, attempt: (nat, string) -> Outcome)
    returns (done: bool, lastError: string)
    ensures var tries := Spellings(remote, sizeKnown);
            done <==> exists j :: 0 <= j < |tries| && attempt(j, tries[j]).Ok?
    ensures var tries := Spellings(remote, sizeKnown);
            !done ==> lastError == attempt(|tries| - 1, Relative(remote)).msg
  {
    var tries := Spellings(remote, sizeKnown);
    lastError := "";
    var i := 0;
    while i < |tries|
      invariant 0 <= i <= |tries|
      invariant forall j :: 0 <= j < i ==> attempt(j, tries[j]).Err?
      invariant i > 0 ==> lastError == attempt(i - 1, tries[i - 1]).msg
    {
      var o := attempt(i, tries[i]);
      if o.Ok? {
        return true, lastError;
      }
      lastError := o.msg;
      i := i + 1;
    }
    done := false;
  }

  /** Downloads a file: succeeds exactly when one of the attempts succeeds;
      otherwise raises the reworded error of the final attempt. */
  method Download(remote: string, sizeKnown: string -> bool, attempt: (nat, string) -> Outcome)
    returns (r: Outcome)
    ensures var tries := Spellings(remote, sizeKnown);
            r.Ok? <==> exists j :: 0 <= j < |tries| && attempt(j, tries[j]).Ok?
    ensures var tries := Spellings(remote, sizeKnown);
            r.Err? ==> r.msg == Messages.Rewrap(attempt(|tries| - 1, Relative(remote)).msg)
  {
    var done, lastError := TrySpellings(remote, sizeKnown, attempt);
    if done {
      r := Ok;
    } else {
      r := Err(Messages.Rewrap(lastError));
    }
  }
}
